=== FILE: README.md ===
# node-Imlib2 handle model

A Dafny model of the bookkeeping that the node-Imlib2 binding keeps around
the Imlib2 image library. All of it lives in `src/Imlib2.cc`. The model
covers:

- the handle record built by the constructor and filled in by a load;
- the staged transforms that only record geometry until a save:
  - `crop(aspect, align)`, with its alignment codes;
  - `scale(per)`;
  - `resize(w, h)`, `resizeByWidth(w)` and `resizeByHeight(h)`;
- the `quality` and `format` setters, and the size and format getters;
- the commit in `saveContext`, which applies crop, then resize, then
  quality and format, and always restores the pre-save clone;
- the table `ImlibStrError`, which maps each error code to its name;
- how `beginEIO` and `endEIO` decide what a queued load or save hands to
  its callback;
- the `new Imlib2(...)` and `save(...)` entry points, with their argument
  checks.

The model works on numbers the way the source does:

- C `double` is a datatype with finite values, the infinities and NaN, so
  that a JavaScript `NaN`, or a division by a zero side, behaves as in C.
- C `int` and `unsigned int` are bounded subset types.
- Every float-to-int store truncates toward zero.
- `Uint32Value` wraps modulo 2^32.
- Storing an `unsigned int` above `INT_MAX` into an `int` wraps, as GCC and
  Clang do.

A float-to-int conversion that C leaves undefined has no result here:
- the operation performing it carries a `requires` predicate, such as
  `CropDefined`, `ScaleDefined` or `ByWidthDefined`;
- `Bindings.CallDefined` collects these predicates for each call;
- `Bindings.Run` returns `None` once a call sequence reaches such a
  conversion.

Modules, in dependency order:

| module | file | contents |
|---|---|---|
| `Wrappers` | `wrappers.dfy` | `Option` |
| `Doubles` | `doubles.dfy` | doubles, `int`/`unsigned int`, IEEE comparison, `*` and `/`, truncation and the conversions |
| `Values` | `values.dfy` | JavaScript argument values and the V8 conversions the binding uses |
| `Errors` | `errors.dfy` | `ImageErrorType_e` and `ImlibStrError` |
| `Handles` | `handle.dfy` | the handle record, constructor, load, getters, `quality` and `format` setters |
| `Planner` | `planner.dfy` | crop, scale, resize, resize by width and by height |
| `Commit` | `commit.dfy` | `saveContext` on an image reduced to its size |
| `Tasks` | `tasks.dfy` | `beginEIO`/`endEIO` outcome selection |
| `Bindings` | `bindings.dfy` | `New`, `fnSave`, argument checks and dispatch of the staging methods and setters |
| `Scenarios` | `scenarios.dfy` | worked examples on concrete images |

## Model

| member | source | states |
|---|---|---|
| `Errors.NameReadsBack` | src/Imlib2.cc:74-146 | Every error code has a name, and looking that name up gives the same code back, so the name table is total and one-to-one. |
| `Errors.SuccessNamedNone` | src/Imlib2.cc:74-146 | "NONE" names success and no other code; "UNACCEPTABLE_IMAGE_FORMAT" names the binding's own `FORMAT_UNACCEPTABLE` code and no other. |
| `Errors.ErrorNamesDistinct` | src/Imlib2.cc:74-146 | Two codes get the same name only if they are the same code. |
| `Handles.Fresh` | src/Imlib2.cc:203-218 | A new handle has no image, no format and no save format. Nothing is staged, quality is 100, and every size getter reports 0. |
| `Handles.CreateContext` | src/Imlib2.cc:389-408 | The load fails exactly when Imlib2 reports a code other than success. On failure the error is that code's name and the image is gone. On success the handle holds the image and its format, both the raw and the staged getters report the image's size, the crop equals the natural size, and staging flags, offsets and quality stay as they were. A plausible image leaves the handle loaded. |
| `Handles.SetQuality` | src/Imlib2.cc:549-561 | A non-number is ignored. A number is converted to an unsigned int and stored, capped at 100, so quality never exceeds 100. Nothing else changes. |
| `Handles.QualityReadsBack` | src/Imlib2.cc:549-561 | Assigning a whole number from 0 to 100 reads back unchanged. |
| `Handles.NegativeQualitySaturates` | src/Imlib2.cc:549-561 | Assigning -1 gives 100, because the unsigned conversion wraps it to 2^32 - 1 first. |
| `Handles.SetFormat` | src/Imlib2.cc:507-515 | A non-empty string becomes the save format, cut at its first NUL as a C-string copy is, and anything else is ignored. The `format` getter keeps reporting the detected format. |
| `Values.CString` | src/Imlib2.cc:513 | The C-string copy of a string is its longest prefix without a NUL: it holds no NUL, and it stops only where the string ends or a NUL follows. |
| `Handles.RawWidth` | src/Imlib2.cc:517-522 | `rawWidth` reports the natural width the load recorded. |
| `Handles.RawHeight` | src/Imlib2.cc:523-528 | `rawHeight` reports the natural height the load recorded. |
| `Handles.Width` | src/Imlib2.cc:530-535 | `width` reports the resize target's width once a resize is staged, and the crop's width otherwise. The crop's width is not reset when a later crop is unstaged, so it can be stale (see `Scenarios.EqualAspectCropLeavesStaleWidth`). |
| `Handles.Height` | src/Imlib2.cc:536-541 | `height` reports the resize target's height once a resize is staged, and the crop's height otherwise, with the same staleness. |
| `Handles.Quality` | src/Imlib2.cc:543-548 | `quality` reports the stored quality, never above 100 after the setter. |
| `Handles.Format` | src/Imlib2.cc:499-505 | `format` reports the format Imlib2 detected at load, `None` where the source hands NULL to V8, and never the format assigned for saving. |
| `Bindings.CallKeepsRawSize` | src/Imlib2.cc:517-528 | `rawWidth` and `rawHeight` report the natural size, whatever any call stages. |
| `Commit.SavedSizeMatchesReported` | src/Imlib2.cc:530-541 | On a loaded handle, `width` and `height` report the size a save writes whenever a crop is staged or the crop still holds the natural size. |
| `Doubles.ToInt32` | src/Imlib2.cc:579 | Converting a double to `int` gives its truncation toward zero. It is defined only for finite values in range. |
| `Doubles.ToUint32` | src/Imlib2.cc:556 | `Uint32Value` maps NaN and the infinities to 0. It truncates a finite value and wraps it modulo 2^32, and leaves an in-range value unchanged. |
| `Doubles.UnsignedToInt` | src/Imlib2.cc:695-696 | An `unsigned int` stored into an `int` keeps its value up to `INT_MAX` and otherwise wraps modulo 2^32. |
| `Doubles.HalveTowardZero` | src/Imlib2.cc:590-615 | C's `n / 2`, used for the centred `x` at line 590 and the centred `y` at line 615, leaves a remainder of 0 or 1 with the sign of `n`. |
| `Planner.Offset` | src/Imlib2.cc:581-625 | Align code 1 puts the crop flush with the start and 3 flush with the end. Code 2 centres it, with the start margin at most one pixel below the end margin. Code 0, any other code and a missing align keep the previous offset. |
| `Planner.Crop` | src/Imlib2.cc:563-637 | The aspect may be any double but 0, NaN included. A crop is staged exactly when the requested aspect is strictly above or below the natural aspect, and the result reports whether one was. With an equal aspect or NaN, which compares neither above nor below, the crop is unstaged and nothing else changes. A smaller aspect keeps the natural height and narrows the width. A larger aspect keeps the natural width and shortens the height. In both cases the crop's aspect is recomputed from its integer sides and only the moved offset changes. |
| `Planner.Narrowed` | src/Imlib2.cc:577-600 | The narrowed crop's width is the natural height times the aspect converted to `int`. Its height is the natural height, `x` follows the alignment code, and nothing else changes. |
| `Planner.Shortened` | src/Imlib2.cc:602-624 | The shortened crop's height is the natural width over the aspect converted to `int` (0 for an infinite aspect). Its width is the natural width, `y` follows the alignment code, and nothing else changes. |
| `Planner.CropSidesTruncate` | src/Imlib2.cc:577-605 | In real arithmetic, a narrowed width is `size.h * aspect` truncated. A shortened height is `size.w / aspect` truncated, or 0 when the aspect is infinite. |
| `Planner.CropStagesUnlessAspectMatches` | src/Imlib2.cc:576-634 | On a loaded image, `crop` returns true exactly when the aspect is not NaN and differs from the natural one. Otherwise the handle is left uncropped. |
| `Planner.CropStaysInside` | src/Imlib2.cc:577-626 | For a positive aspect on a loaded image, the cropped side is strictly smaller than the natural side, and an offset set by the call keeps the crop inside the image. |
| `Planner.CropApproximatesAspect` | src/Imlib2.cc:576-633 | For a positive aspect on a loaded image, in exact arithmetic, the crop's aspect is the requested one up to the pixel lost to truncation. A narrowed crop is never wider than asked and short by less than one column. A shortened crop of at least one row is never taller than asked and short by less than one row. |
| `Planner.CropIdempotent` | src/Imlib2.cc:576-634 | Cropping twice with the same arguments equals cropping once, because a crop is computed from the natural size only. |
| `Planner.Scale` | src/Imlib2.cc:647-665 | Only a finite positive percentage has a defined result. Each side of the base region (the crop if staged, else the natural size) is scaled as `(side / 100) * per` in doubles and converted to `int`. `scale` is recorded, a resize is staged, and nothing else changes. |
| `Planner.PercentTruncates` | src/Imlib2.cc:662-663 | In real arithmetic, a side converted from `(side / 100) * per` is `side * per / 100` truncated. |
| `Planner.ScaleByHundredKeepsBase` | src/Imlib2.cc:652-664 | `scale(100)` is always defined and makes the handle report exactly its base region. |
| `Planner.Resize` | src/Imlib2.cc:678-699 | A request equal to the base region changes nothing, even over an earlier staged resize. Any other request is staged with both sides stored as `int`, and the getters report it when it fits. Only the resize fields change. |
| `Planner.ResizeByWidth` | src/Imlib2.cc:712-733 | A width equal to the base width changes nothing. Otherwise the width is staged as given and the height is the width over the base aspect, truncated (0 for an infinite aspect). Only the resize fields change. |
| `Planner.ResizeByHeight` | src/Imlib2.cc:746-767 | A height equal to the base height changes nothing. Otherwise the height is staged as given and the width is the height times the base aspect, truncated. Only the resize fields change. |
| `Planner.LoadedBaseAspect` | src/Imlib2.cc:717-726 | On a loaded handle, the base aspect the resize variants read agrees with the base sides they read. |
| `Planner.ResizeByWidthKeepsProportion` | src/Imlib2.cc:717-731 | On a loaded handle, in exact arithmetic, the derived height is `width * baseHeight / baseWidth` truncated, so the proportions of the base region are kept. This includes a base region of negative width (a crop to a negative aspect) and one of zero height, which derives 0. |
| `Planner.ByWidthNeedsBaseWidth` | src/Imlib2.cc:717-731 | On a loaded handle, a resize by width that changes anything is defined only when the base width is not 0, so the nonzero base width the proportion law asks for excludes no defined call. |
| `Planner.ResizeByHeightKeepsProportion` | src/Imlib2.cc:751-766 | The mirror statement: on a loaded handle, in exact arithmetic, the derived width is `height * baseWidth / baseHeight` truncated. This includes a base region of zero or negative width. |
| `Planner.ByHeightNeedsBaseHeight` | src/Imlib2.cc:751-766 | On a loaded handle, a resize by height that changes anything is defined only when the base height is not 0, so the proportion law's nonzero base height excludes no defined call. |
| `Planner.ScaleIdempotent` | src/Imlib2.cc:652-664 | Repeating `scale(per)` changes nothing more, because a staged resize never changes the base region that `scale` reads. |
| `Planner.ResizeIdempotent` | src/Imlib2.cc:685-698 | Repeating `resize(w, h)` changes nothing more. |
| `Planner.ResizeByWidthIdempotent` | src/Imlib2.cc:717-731 | Repeating `resizeByWidth(w)` stays defined and changes nothing more. |
| `Planner.ResizeByHeightIdempotent` | src/Imlib2.cc:751-766 | Repeating `resizeByHeight(h)` stays defined and changes nothing more. |
| `Commit.SaveContext` | src/Imlib2.cc:410-456 | The written size is the resize target if one is staged, else the crop if one is staged, else the image. The path, quality and forced format are passed through. The error is reported exactly when the encoder fails, under that code's name. The handle comes back as it was, with the clone as its image. |
| `Commit.SaveKeepsHandleUsable` | src/Imlib2.cc:446-449 | Saving a loaded handle leaves it loaded and reporting the same size, whether or not the write failed. |
| `Tasks.BeginTask` | src/Imlib2.cc:241-266 | A failed lock records the lock's error text and runs nothing. Otherwise the load or save runs, its error name is recorded, and a failed unlock records its own error text. |
| `Tasks.EndTask` | src/Imlib2.cc:268-335 | A system error text takes precedence over the operation's error, and there is no error only when neither exists. A load callback gets two arguments: the error and `undefined` (the handle deleted) on failure, `undefined` and the handle otherwise. A save callback gets the error alone, and the handle survives. |
| `Tasks.LockFailureSkipsOperation` | src/Imlib2.cc:247-249 | After a failed lock nothing is loaded or written, the handle is untouched, and the callback gets the lock's error. A load task's handle is deleted. |
| `Tasks.MutexErrorTakesPrecedence` | src/Imlib2.cc:281-286 | If either mutex call fails, the callback's error is that mutex error, whatever the library answered. |
| `Tasks.LoadTaskOutcome` | src/Imlib2.cc:295-317 | With both mutex calls succeeding, a load callback reports success exactly when Imlib2 did. It then gets the loaded handle, which reports the image's size. Otherwise it gets the error name and `undefined`, and the handle is gone. |
| `Tasks.SaveTaskOutcome` | src/Imlib2.cc:318-330 | With both mutex calls succeeding, a save callback gets only the commit's error, the encoder gets the commit's request, and the handle survives. |
| `Tasks.FailedLoadNeverExposesHandle` | src/Imlib2.cc:295-308 | Whatever the mutex and library report, a load callback never receives the handle together with an error, and the handle of a failed load does not survive. |
| `Bindings.Open` | src/Imlib2.cc:337-387 | The call throws the usage `TypeError` exactly when the path is not a non-empty string or a second argument is not a function. The path used is the string's C-string copy. With a callback, a fresh handle is returned and a load is queued. Without one, the call throws the error name exactly when the load fails, and otherwise returns a handle showing the image's size and format with nothing staged. |
| `Bindings.AsyncOpenAgreesWithSync` | src/Imlib2.cc:355-383 | With both mutex calls succeeding, a queued load reaches the same outcome as a synchronous one: the same handle, or the same error name passed instead of thrown. |
| `Bindings.Save` | src/Imlib2.cc:458-496 | The argument check matches `new`, and the path written is the string's C-string copy. With a callback a save task is queued. Without one the commit runs and the handle is left as it was. |
| `Bindings.SyncSaveIgnoresError` | src/Imlib2.cc:488-493 | A synchronous save has the same outcome for every error code the encoder could report. |
| `Bindings.AsyncSaveAgreesWithSync` | src/Imlib2.cc:473-493 | A queued save hands the encoder the same request as a synchronous save of the same path, and the same handle survives. |
| `Bindings.AssignedFormatIsWritten` | src/Imlib2.cc:442-444 | A format assigned through the setter, cut at its first NUL, is the one the next save forces, while the `format` getter still reports the detected one. |
| `Bindings.Accepted` | src/Imlib2.cc:571-746 | The argument checks. `crop` needs an argument whose number is not 0. `scale` needs a number that is NaN or above 0. `resize` needs two numbers and each resize variant its one number, whose `Uint32Value` is at least 1. Assigning `quality` or `format` never throws. |
| `Bindings.Call` | src/Imlib2.cc:563-770 | A call throws its usage `TypeError` exactly when its argument check fails; `crop` passes it with any value whose number is not 0, NaN included. Only `crop` returns a value. No call changes the source, the image, the natural size or the detected format. Only the matching setter changes quality or the save format. |
| `Bindings.CallKeepsLoaded` | src/Imlib2.cc:563-770 | Every call keeps a loaded handle loaded. |
| `Bindings.RunKeepsLoaded` | src/Imlib2.cc:563-770 | Any defined sequence of calls on a loaded handle leaves it loaded, with the source, image, natural size and detected format the load set. |
| `Bindings.ScaleAcceptsNaN` | src/Imlib2.cc:647 | `scale(NaN)` passes the argument check, but its conversion to `int` is undefined for every handle. |
| `Bindings.NegativeResizeWraps` | src/Imlib2.cc:678-696 | `resize(-1, 5)` is accepted, and the handle then reports a width of -1. |
| `Bindings.CropArgumentChecks` | src/Imlib2.cc:571 | `crop` rejects a missing argument, 0 and the string "0". It accepts NaN, a function, a non-numeric string, a negative number and a numeric string. |
| `Bindings.CropNaNUnstages` | src/Imlib2.cc:571-634 | `crop(NaN)` is accepted on any handle, returns false and unstages the crop, leaving everything else as it was. |
| `Bindings.FormatStopsAtNul` | src/Imlib2.cc:512-514 | Assigning the format `"\0png"` stores the empty string. |
| `Scenarios.CropToSquareCentred` | src/Imlib2.cc:577-590 | On 1000x500, `crop(1, 2)` stages a centred 500x500 crop at x = 250. |
| `Scenarios.ScaleHalvesBase` | src/Imlib2.cc:652-664 | `scale(50)` halves the natural size, or the crop once one is staged. |
| `Scenarios.ResizeByWidthFollowsBase` | src/Imlib2.cc:717-731 | On 1000x500, `resizeByWidth(300)` gives 300x150, or 300x300 after a square crop. |
| `Scenarios.StaleOffsetLeavesImage` | src/Imlib2.cc:577-624 | An offset survives from an earlier crop on the other axis, so the rectangle handed to the library can reach past the image's edge. |
| `Scenarios.EqualAspectCropLeavesStaleWidth` | src/Imlib2.cc:627-633 | A crop to the natural aspect after a real crop unstages it but leaves its size behind: `width` reports 50 while a save writes 100x50. |
| `Scenarios.RoundedAspectShortens` | src/Imlib2.cc:576-633 | On 1000x300 with exact arithmetic, `crop(3.3333333333333335)` compares above the natural aspect 10/3 and stages a 1000x299 crop. In IEEE doubles the two aspects are equal and no crop is staged. |
| `Scenarios.ResizeBackToBaseIsIgnored` | src/Imlib2.cc:694-698 | A resize back to the base size leaves an earlier staged resize in place. |
| `Scenarios.CropAfterResizeKeepsTarget` | src/Imlib2.cc:422-438 | A crop after `resizeByWidth` does not recompute the target: the 500x500 crop is written at 300x150. |

## Left out

- Pixel work: loading, cloning, cropping, scaling, attaching quality and encoding are Imlib2 calls. An image is reduced to its width and height, and a derived image has the size requested. Imlib2's handling of rectangles that reach outside the image is not modelled.
- Rounding: finite doubles are exact reals, so the results of `*` and `/` are not rounded. Every zero is +0, the only zero the binding obtains from its integer fields. The most visible effect is on a 1000x300 image. There, JavaScript's `rawWidth / rawHeight` is the double 3.3333333333333335, which equals the rounded natural aspect the binding stores, so `crop` with it returns false. The model's natural aspect is exactly 10/3, which is below that double, so the model shortens the crop to 1000x299 (`Scenarios.RoundedAspectShortens`).
- Undefined behaviour is excluded by preconditions, not modelled. This covers a float-to-int conversion of NaN, an infinity or an out-of-range value, and centring arithmetic that overflows `int`. The cases are:
  - `scale` with NaN, an infinite percentage, or one whose result leaves the `int` range;
  - `crop` with −∞, or with a negative aspect whose product with the natural height leaves the `int` range. A huge or infinite positive aspect is defined and gives a height of 0;
  - `resizeByWidth` when the base aspect is NaN or 0 (a crop of width 0), or the derived height leaves the `int` range. An infinite base aspect (a crop of height 0) is defined and gives a height of 0;
  - `resizeByHeight` when the base aspect is NaN or infinite, or the derived width leaves the `int` range.
- `Handles.CreateContext`: Imlib2 is given as the `LoadReply` parameter, and its cache is not modelled.
- `Commit.SaveContext` requires an image, and so do `Tasks.BeginTask` and `Tasks.RunTask` for a queued save. A synchronous or a queued save that runs before a queued load has finished, or on a handle whose load failed, passes a NULL image to Imlib2, and what Imlib2 does then is not part of this model.
- V8 glue is not modelled: `Arguments`, `HandleScope`, `ObjectWrap`, `Ref`/`Unref`, persistent handles, the module's `Initialize`, and exceptions thrown by a callback.
- `Values`: the conversion of a string, function or object to a number (`NumberValue`) is abstracted to a number carried with the value. `ToString` on the error value is the identity on the name.
- `Values.CString`: a string is a sequence of characters. `String::Utf8Value` encodes it as UTF-8 before `strdup` copies it, and that encoding is not modelled. The cut at the first NUL is modelled, in the path and in the format.
- Concurrency is not modelled: eio scheduling, the worker thread and the pthread mutex. Only what each mutex call reports is a parameter. The system error text (`strerror(errno)`) is a parameter too.
- Memory is not modelled: `strdup`/`free`, the leak of an earlier save format in `setFormat`, and the destructor.
- `Handles.Format`: after a save, the detected format is the format string of the image the save freed. The `format` getter then reads freed memory, so what it reports is undefined. The model keeps reporting the detected format.
- `attached` and the destructor's use of it are not modelled, and neither is the `scale` field beyond recording it.
- `Errors`: only the codes of `ImageErrorType_e` are modelled. A code Imlib2 might report outside that enum is not, because the `switch` in `ImlibStrError` has no default branch. The binding never raises `FORMAT_UNACCEPTABLE` itself, but it has a name.
- `Handles.Format`: before a load, the `format` getter hands NULL to V8. The model returns `None` there.
- `Bindings.Run`: each thrown exception is treated as caught, so the run continues on the unchanged handle.
- `Planner.Scale`: its contract states the sides through the double expression `(side / 100) * per`. The real-arithmetic reading `side * per / 100`, truncated, is a separate lemma, `Planner.PercentTruncates`.
- `Planner.ScaleByHundredKeepsBase`: it holds for exact reals only. In IEEE doubles `(29 / 100) * 100` is 28.999999999999996, so `scale(100)` on a side of 29 stages 28, and a side of 57 stages 56. The lemma does not promise the double-precision result.
- `Planner.CropApproximatesAspect`, `Planner.ResizeByWidthKeepsProportion`, `Planner.ResizeByHeightKeepsProportion`, `Planner.PercentTruncates`: these hold in exact arithmetic. The double rounding of `*` and `/` can move a result across an integer and change the truncated side by one.

=== FILE: bindings.dfy ===
/** The JavaScript surface: the `Imlib2` constructor, `save`, the staging
    methods and the property setters, each with the argument checks it makes
    before touching the handle and the `TypeError` it throws otherwise. */
module Bindings {
  import opened Wrappers
  import opened Doubles
  import opened Values
  import opened Errors
  import opened Handles
  import opened Planner
  import opened Commit
  import opened Tasks

  /** A JavaScript exception: `TypeError` for bad arguments, `Error` for a
      failed synchronous load. */
  datatype Thrown = TypeError(message: string) | Error(message: string)

  // The usage texts the methods throw.
  const NEW_USAGE := "new Imlib2( path_to_image:String, [callback:Function] )"
  const SAVE_USAGE := "save( path_to_file:String, [callback:Function] )"
  const CROP_USAGE := "crop( aspect:Number > 0, align:Number )"
  const SCALE_USAGE := "scale( percentages:Number > 0 )"
  const RESIZE_USAGE := "resize( width:Number > 0, height:Number > 0 )"
  const BY_WIDTH_USAGE := "resizeByWidth( width:Number > 0 )"
  const BY_HEIGHT_USAGE := "resizeByHeight( height:Number > 0 )"

  /** The check `new` and `save` share: a non-empty path string, then
      optionally a function, which makes the call asynchronous. */
  predicate PathArgsValid(args: seq<Value>)
  {
    |args| >= 1 && IsNonEmptyString(args[0]) && (|args| > 1 ==> IsFunction(args[1]))
  }

  // ------------------------------------------------------------ new Imlib2

  /** What `new Imlib2(...)` does: throw, return a loaded handle, or return
      a handle at once and queue its load. */
  datatype Opening = OpenThrew(error: Thrown) | Opened(handle: Handle) | OpenQueued(handle: Handle, task: Task)

  /** `New`.  `reply` is what Imlib2 would answer to a synchronous load. */
  function Open(args: seq<Value>, reply: LoadReply): (r: Opening)
    ensures !PathArgsValid(args) <==> r == OpenThrew(TypeError(NEW_USAGE))
    ensures PathArgsValid(args) && |args| > 1 ==> r == OpenQueued(Fresh(CString(args[0].chars)), LoadTask)
    ensures PathArgsValid(args) && |args| == 1 ==>
      && (r.Opened? <==> reply.code == NoError)
      && (reply.code != NoError ==> r == OpenThrew(Error(ErrorName(reply.code))))
      && (r.Opened? ==>
            && r.handle.src == CString(args[0].chars)
            && Width(r.handle) == RawWidth(r.handle) == reply.image.w
            && Height(r.handle) == RawHeight(r.handle) == reply.image.h
            && Format(r.handle) == Some(reply.format)
            && !r.handle.cropped && !r.handle.resized && Quality(r.handle) == 100
            && (Plausible(reply.image) ==> Loaded(r.handle)))
  {
    if !PathArgsValid(args) then OpenThrew(TypeError(NEW_USAGE))
    else
      var blank := Fresh(CString(args[0].chars));
      if |args| > 1 then OpenQueued(blank, LoadTask)
      else
        var a := CreateContext(blank, reply);
        if a.error.Some? then OpenThrew(Error(a.error.value)) else Opened(a.handle)
  }

  /** Loading with a callback reaches the same outcome as loading without
      one, when neither mutex call fails: the same handle on success, the
      same error name otherwise (thrown in one case, passed in the other). */
  lemma AsyncOpenAgreesWithSync(path: string, n: Double, reply: LoadReply, saveCode: ErrorCode)
    requires |path| > 0
    ensures var sync := Open([Text(path, n)], reply);
      var queued := Open([Text(path, n), Callable(n)], reply);
      && queued.OpenQueued?
      && var d := RunTask(queued.handle, queued.task, Acquired, Library(reply, saveCode), Acquired);
      && (sync.Opened? ==> d.args == [Undefined, HandleObject(sync.handle)])
      && (sync.OpenThrew? ==> d.args == [ErrorObject(sync.error.message), Undefined])
  {
  }

  // ------------------------------------------------------------------ save

  /** What `save(...)` does: throw, write now, or queue a save task. */
  datatype Saving = SaveThrew(error: Thrown) | Saved(handle: Handle, written: SaveRequest) | SaveQueued(handle: Handle, task: Task)

  /** `fnSave`.  A synchronous save drops the commit's error: it returns
      `undefined` whether or not the encoder failed. */
  function Save(h: Handle, args: seq<Value>, code: ErrorCode): (r: Saving)
    requires PathArgsValid(args) && |args| == 1 ==> h.img.Some?
    ensures !PathArgsValid(args) <==> r == SaveThrew(TypeError(SAVE_USAGE))
    ensures PathArgsValid(args) && |args| > 1 ==> r == SaveQueued(h, SaveTask(CString(args[0].chars)))
    ensures PathArgsValid(args) && |args| == 1 ==>
      r.Saved? && r.handle == h && r.written == SaveContext(h, CString(args[0].chars), code).written
  {
    if !PathArgsValid(args) then SaveThrew(TypeError(SAVE_USAGE))
    else if |args| > 1 then SaveQueued(h, SaveTask(CString(args[0].chars)))
    else
      var c := SaveContext(h, CString(args[0].chars), code);
      Saved(c.handle, c.written)
  }

  /** A synchronous save never reveals whether the write failed: its outcome
      is the same for every error code the encoder could report. */
  lemma SyncSaveIgnoresError(h: Handle, args: seq<Value>, a: ErrorCode, b: ErrorCode)
    requires PathArgsValid(args) && |args| == 1 && h.img.Some?
    ensures Save(h, args, a) == Save(h, args, b)
  {
  }

  /** A queued save, run with both mutex calls succeeding, hands the encoder
      the same request a synchronous save of the same path would, and leaves
      the handle as it was. */
  lemma AsyncSaveAgreesWithSync(h: Handle, path: string, n: Double, lib: Library)
    requires |path| > 0 && h.img.Some?
    ensures var queued := Save(h, [Text(path, n), Callable(n)], lib.saveCode);
      var sync := Save(h, [Text(path, n)], lib.saveCode);
      && queued.SaveQueued? && sync.Saved?
      && BeginTask(h, queued.task, Acquired, lib, Acquired).written == Some(sync.written)
      && RunTask(h, queued.task, Acquired, lib, Acquired).survivor == Some(sync.handle)
  {
  }

  /** A format assigned through the setter is the one the next save forces,
      although the `format` property keeps reporting the detected one. */
  lemma AssignedFormatIsWritten(h: Handle, name: string, n: Double, path: string, code: ErrorCode)
    requires |name| > 0 && h.img.Some?
    ensures SaveContext(SetFormat(h, Text(name, n)), path, code).written.format == Some(CString(name))
    ensures Format(SetFormat(h, Text(name, n))) == Format(h)
  {
  }

  // --------------------------------------------- staging methods and setters

  /** One call on a handle: a staging method with its arguments, or an
      assignment to the `quality` or `format` property. */
  datatype Request =
    | CropCall(args: seq<Value>)
    | ScaleCall(args: seq<Value>)
    | ResizeCall(args: seq<Value>)
    | ResizeByWidthCall(args: seq<Value>)
    | ResizeByHeightCall(args: seq<Value>)
    | AssignQuality(value: Value)
    | AssignFormat(value: Value)

  /** A number whose `Uint32Value` is at least 1. */
  predicate PositiveCount(v: Value)
  {
    IsNumber(v) && Uint32Value(v) >= 1
  }

  /** The argument checks.  `crop` accepts any value whose number is not 0
      (negative numbers, NaN, functions and numeric strings included); `scale`
      rejects only numbers `<= 0`, so NaN gets through; the resize variants
      convert with `Uint32Value` first, so -1 becomes 4294967295 and passes.
      Property assignments never throw. */
  predicate Accepted(req: Request)
  {
    match req
    case CropCall(args) => |args| >= 1 && Truthy(NumberValue(args[0]))
    case ScaleCall(args) => |args| >= 1 && IsNumber(args[0]) && ScaleAccepts(args[0].number)
    case ResizeCall(args) => |args| >= 2 && PositiveCount(args[0]) && PositiveCount(args[1])
    case ResizeByWidthCall(args) => |args| >= 1 && PositiveCount(args[0])
    case ResizeByHeightCall(args) => |args| >= 1 && PositiveCount(args[0])
    case AssignQuality(_) => true
    case AssignFormat(_) => true
  }

  /** `crop`'s second argument takes effect only when it is a number. */
  function AlignArgument(args: seq<Value>): Option<uint32>
  {
    if |args| > 1 && IsNumber(args[1]) then Some(Uint32Value(args[1])) else None
  }

  function Usage(req: Request): string
  {
    match req
    case CropCall(_) => CROP_USAGE
    case ScaleCall(_) => SCALE_USAGE
    case ResizeCall(_) => RESIZE_USAGE
    case ResizeByWidthCall(_) => BY_WIDTH_USAGE
    case ResizeByHeightCall(_) => BY_HEIGHT_USAGE
    case AssignQuality(_) => ""
    case AssignFormat(_) => ""
  }

  /** The accepted calls whose float-to-int conversions C defines. */
  predicate CallDefined(h: Handle, req: Request)
  {
    Accepted(req) ==>
      match req
      case CropCall(args) => CropDefined(h, NumberValue(args[0]), AlignArgument(args))
      case ScaleCall(args) => ScaleDefined(h, args[0].number)
      case ResizeByWidthCall(args) => ByWidthDefined(h, Uint32Value(args[0]))
      case ResizeByHeightCall(args) => ByHeightDefined(h, Uint32Value(args[0]))
      case _ => true
  }

  /** A call either throws, leaving the handle alone, or returns with the
      handle updated; `crop` alone returns a value, whether it staged. */
  datatype Outcome = Threw(error: Thrown) | Returned(handle: Handle, staged: Option<bool>)

  /** Dispatch of one call.  Whatever it is, a call never changes the source
      path, the image, the natural size or the detected format, and only the
      matching setter changes the quality or the save format. */
  function Call(h: Handle, req: Request): (r: Outcome)
    requires CallDefined(h, req)
    ensures r.Threw? <==> !Accepted(req)
    ensures r.Threw? ==> r.error == TypeError(Usage(req)) && Usage(req) != ""
    ensures r.Returned? ==> (r.staged.Some? <==> req.CropCall?)
    ensures r.Returned? ==>
      && r.handle.src == h.src && r.handle.img == h.img
      && r.handle.size == h.size && r.handle.format == h.format
      && (!req.AssignQuality? ==> r.handle.quality == h.quality)
      && (!req.AssignFormat? ==> r.handle.formatTo == h.formatTo)
  {
    if !Accepted(req) then Threw(TypeError(Usage(req)))
    else
      match req
      case CropCall(args) =>
        var c := Crop(h, NumberValue(args[0]), AlignArgument(args));
        Returned(c.handle, Some(c.staged))
      case ScaleCall(args) => Returned(Scale(h, args[0].number), None)
      case ResizeCall(args) => Returned(Resize(h, Uint32Value(args[0]), Uint32Value(args[1])), None)
      case ResizeByWidthCall(args) => Returned(ResizeByWidth(h, Uint32Value(args[0])), None)
      case ResizeByHeightCall(args) => Returned(ResizeByHeight(h, Uint32Value(args[0])), None)
      case AssignQuality(v) => Returned(SetQuality(h, v), None)
      case AssignFormat(v) => Returned(SetFormat(h, v), None)
  }

  /** The handle after a call, a thrown call leaving it as it was. */
  function After(h: Handle, req: Request): Handle
    requires CallDefined(h, req)
  {
    match Call(h, req)
    case Threw(_) => h
    case Returned(next, _) => next
  }

  /** Every call keeps a loaded handle loaded. */
  lemma CallKeepsLoaded(h: Handle, req: Request)
    requires Loaded(h) && CallDefined(h, req)
    ensures Loaded(After(h, req))
  {
  }

  /** `rawWidth` and `rawHeight` keep reporting the natural size whatever
      a call stages. */
  lemma CallKeepsRawSize(h: Handle, req: Request)
    requires CallDefined(h, req)
    ensures RawWidth(After(h, req)) == RawWidth(h)
    ensures RawHeight(After(h, req)) == RawHeight(h)
  {
  }

  /** A sequence of calls on one handle, each exception caught; `None` once a
      call reaches behaviour C leaves undefined. */
  function Run(h: Handle, reqs: seq<Request>): Option<Handle>
    decreases |reqs|
  {
    if |reqs| == 0 then Some(h)
    else if !CallDefined(h, reqs[0]) then None
    else Run(After(h, reqs[0]), reqs[1..])
  }

  /** However calls are staged on a loaded handle, it stays loaded and its
      source, image, natural size and detected format stay what the load set:
      staging never touches pixels. */
  lemma {:induction false} RunKeepsLoaded(h: Handle, reqs: seq<Request>)
    requires Loaded(h)
    ensures Run(h, reqs).Some? ==>
      var e := Run(h, reqs).value;
      && Loaded(e)
      && e.src == h.src && e.img == h.img && e.size == h.size && e.format == h.format
    decreases |reqs|
  {
    if |reqs| > 0 && CallDefined(h, reqs[0]) {
      CallKeepsLoaded(h, reqs[0]);
      RunKeepsLoaded(After(h, reqs[0]), reqs[1..]);
    }
  }

  // ------------------------------------------------------ argument quirks

  /** `scale(NaN)` passes the argument check, but converting its result to
      `int` is undefined for every handle. */
  lemma ScaleAcceptsNaN(h: Handle)
    ensures Accepted(ScaleCall([Number(NaN)]))
    ensures !CallDefined(h, ScaleCall([Number(NaN)]))
  {
  }

  /** `resize(-1, 5)` is accepted: -1 wraps to 4294967295 as an unsigned
      int, which never equals the base width and is stored back into an
      `int` as -1, the width the handle then reports. */
  lemma NegativeResizeWraps(h: Handle)
    ensures Accepted(ResizeCall([Number(Finite(-1.0)), Number(Finite(5.0))]))
    ensures Width(After(h, ResizeCall([Number(Finite(-1.0)), Number(Finite(5.0))]))) == -1
  {
    assert Trunc(-1.0) == -1;
    assert Trunc(5.0) == 5;
    assert Uint32Value(Number(Finite(-1.0))) == UINT32_MODULUS - 1;
  }

  /** `crop` rejects a missing argument and 0 only: C's `!aspect` is false
      for NaN, so NaN, a function and a non-numeric string pass, as do a
      negative number and a numeric string. */
  lemma CropArgumentChecks()
    ensures !Accepted(CropCall([]))
    ensures !Accepted(CropCall([Number(Finite(0.0))]))
    ensures !Accepted(CropCall([Text("0", Finite(0.0))]))
    ensures Accepted(CropCall([Number(NaN)]))
    ensures Accepted(CropCall([Callable(NaN)]))
    ensures Accepted(CropCall([Text("abc", NaN)]))
    ensures Accepted(CropCall([Number(Finite(-2.0))]))
    ensures Accepted(CropCall([Text("2", Finite(2.0))]))
  {
  }

  /** `crop(NaN)` is accepted but takes neither branch, since every
      comparison with NaN is false: it unstages any crop, changes nothing
      else, and returns false. */
  lemma CropNaNUnstages(h: Handle, align: Value)
    ensures CallDefined(h, CropCall([Number(NaN), align]))
    ensures Call(h, CropCall([Number(NaN), align])) == Returned(h.(cropped := false), Some(false))
  {
  }

  /** A format string is cut at its first NUL when it is copied: assigning
      "\0png" passes the non-empty check but makes the next save force the
      empty format name. */
  lemma FormatStopsAtNul(h: Handle, n: Double)
    ensures SetFormat(h, Text("\0png", n)).formatTo == Some("")
  {
  }
}

=== FILE: commit.dfy ===
/** `saveContext`: apply the staged crop, then the staged resize, then quality
    and format, hand the result to Imlib2's encoder, and put the pre-save
    clone back as the handle's image whatever the outcome. */
module Commit {
  import opened Wrappers
  import opened Doubles
  import opened Errors
  import opened Handles

  /** What the encoder is asked to write: where, at what size, with which
      quality attached and with which format forced (`None`: Imlib2 picks). */
  datatype SaveRequest = SaveRequest(path: string, width: int32, height: int32,
                                     quality: uint32, format: Option<string>)

  /** The handle after the save, the request made, and the error name. */
  datatype Commit = Commit(handle: Handle, written: SaveRequest, error: Option<string>)

  // The Imlib2 calls `saveContext` makes, on images reduced to their size.

  function CloneImage(img: Image): Image
  {
    img
  }

  function CroppedImage(img: Image, x: int32, y: int32, w: int32, h: int32): Image
  {
    Image(w, h)
  }

  function CroppedScaledImage(img: Image, sx: int32, sy: int32, sw: int32, sh: int32,
                              dw: int32, dh: int32): Image
  {
    Image(dw, dh)
  }

  /** The commit.  The source calls into Imlib2 with the handle's image, so
      one must be present. */
  function SaveContext(h: Handle, path: string, code: ErrorCode): (r: Commit)
    requires h.img.Some?
    ensures r.handle == h
    ensures r.error.Some? <==> code != NoError
    ensures r.error.Some? ==> r.error.value == ErrorName(code)
    ensures h.resized ==> r.written.width == h.resize.w && r.written.height == h.resize.h
    ensures !h.resized && h.cropped ==> r.written.width == h.crop.w && r.written.height == h.crop.h
    ensures !h.resized && !h.cropped ==> r.written.width == h.img.value.w && r.written.height == h.img.value.h
    ensures r.written.path == path && r.written.quality == h.quality && r.written.format == h.formatTo
  {
    var original := h.img.value;
    var clone := CloneImage(original);
    var cropped := if h.cropped then CroppedImage(original, h.x, h.y, h.crop.w, h.crop.h) else original;
    var work :=
      if !h.resized then cropped
      else if h.cropped then CroppedScaledImage(cropped, 0, 0, h.crop.w, h.crop.h, h.resize.w, h.resize.h)
      else CroppedScaledImage(cropped, 0, 0, h.size.w, h.size.h, h.resize.w, h.resize.h);
    var written := SaveRequest(path, work.w, work.h, h.quality, h.formatTo);
    Commit(h.(img := Some(clone)), written, if code != NoError then Some(ErrorName(code)) else None)
  }

  /** The size written is the size the `width` and `height` properties report,
      provided the crop fields still hold what the load put there or a crop is
      staged.  (An exact-aspect `crop` after a real one unstages the crop but
      leaves its stale size, which the getters then report.) */
  lemma SavedSizeMatchesReported(h: Handle, path: string, code: ErrorCode)
    requires Loaded(h)
    requires h.cropped || (h.crop.w == h.size.w && h.crop.h == h.size.h)
    ensures SaveContext(h, path, code).written.width == Width(h)
    ensures SaveContext(h, path, code).written.height == Height(h)
  {
  }

  /** Saving leaves a loaded handle loaded and unchanged, so it can be saved
      again or restaged, whether or not the encoder failed. */
  lemma SaveKeepsHandleUsable(h: Handle, path: string, code: ErrorCode)
    requires Loaded(h)
    ensures Loaded(SaveContext(h, path, code).handle)
    ensures Width(SaveContext(h, path, code).handle) == Width(h)
    ensures Height(SaveContext(h, path, code).handle) == Height(h)
  {
  }
}

=== FILE: doubles.dfy ===
/** Numbers as the binding handles them: C `double`s and JavaScript numbers,
    the C `int` and `unsigned int` fields of the handle, and the conversions
    between them.  Conversions the C language leaves undefined are not given a
    result: the functions performing them require the value to be in range. */
module Doubles {

  const INT32_MIN: int := -0x8000_0000
  const INT32_MAX: int := 0x7FFF_FFFF
  const UINT32_MODULUS: int := 0x1_0000_0000

  /** A C `int`. */
  type int32 = n: int | INT32_MIN <= n <= INT32_MAX

  /** A C `unsigned int`. */
  type uint32 = n: int | 0 <= n < UINT32_MODULUS

  /** An IEEE double.  Finite values are kept exactly (rounding is not
      modelled) and every zero is +0, which is the only zero the binding
      obtains from its integer fields. */
  datatype Double = Finite(value: real) | Infinity(positive: bool) | NaN

  function FromInt(n: int): Double
  {
    Finite(n as real)
  }

  /** IEEE `<`: false whenever either side is NaN. */
  predicate Less(a: Double, b: Double)
  {
    match (a, b)
    case (Finite(x), Finite(y)) => x < y
    case (Infinity(false), Finite(_)) => true
    case (Finite(_), Infinity(true)) => true
    case (Infinity(false), Infinity(true)) => true
    case _ => false
  }

  /** IEEE `<=`. */
  predicate LessOrEqual(a: Double, b: Double)
  {
    Less(a, b) || (a == b && !a.NaN?)
  }

  /** Apart from NaN, doubles are totally ordered by `Less`. */
  lemma LessTrichotomy(a: Double, b: Double)
    requires !a.NaN? && !b.NaN?
    ensures Less(a, b) || Less(b, a) || a == b
    ensures !(Less(a, b) && Less(b, a))
  {
  }

  /** IEEE multiplication. */
  function Mul(a: Double, b: Double): Double
  {
    match (a, b)
    case (Finite(x), Finite(y)) => Finite(x * y)
    case (Finite(x), Infinity(s)) => if x == 0.0 then NaN else Infinity(s == (x > 0.0))
    case (Infinity(s), Finite(y)) => if y == 0.0 then NaN else Infinity(s == (y > 0.0))
    case (Infinity(s), Infinity(t)) => Infinity(s == t)
    case _ => NaN
  }

  /** IEEE division; a zero divisor is +0. */
  function Div(a: Double, b: Double): Double
  {
    match (a, b)
    case (Finite(x), Finite(y)) =>
      if y != 0.0 then Finite(x / y)
      else if x == 0.0 then NaN
      else Infinity(x > 0.0)
    case (Finite(_), Infinity(_)) => Finite(0.0)
    case (Infinity(s), Finite(y)) => Infinity(s == (y >= 0.0))
    case _ => NaN
  }

  /** A finite product has finite factors and is their real product. */
  lemma FiniteProduct(a: Double, b: Double)
    requires Mul(a, b).Finite?
    ensures a.Finite? && b.Finite? && Mul(a, b).value == a.value * b.value
  {
  }

  /** A finite quotient of a finite dividend is the real quotient, or zero
      for an infinite divisor. */
  lemma FiniteQuotient(a: Double, b: Double)
    requires a.Finite? && Div(a, b).Finite?
    ensures b.Finite? ==> b.value != 0.0 && Div(a, b).value == a.value / b.value
    ensures !b.Finite? ==> b.Infinity? && Div(a, b).value == 0.0
  {
  }

  /** `n` is `r` with its fraction dropped toward zero, as C converts a
      floating value to an integer. */
  predicate TruncatesTo(r: real, n: int)
  {
    if r >= 0.0 then n as real <= r < n as real + 1.0
    else n as real - 1.0 < r <= n as real
  }

  function Trunc(r: real): (n: int)
    ensures TruncatesTo(r, n)
  {
    if r >= 0.0 then r.Floor else -((-r).Floor)
  }

  /** C's conversion of a double to `int` is defined exactly when the value is
      finite and its truncation fits in an `int`. */
  predicate FitsInt32(d: Double)
  {
    d.Finite? && INT32_MIN <= Trunc(d.value) <= INT32_MAX
  }

  /** Converting `d` to a C integer yields `n`: `d` is finite and `n` is
      its truncation. */
  predicate ConvertsTo(d: Double, n: int)
  {
    d.Finite? && TruncatesTo(d.value, n)
  }

  function ToInt32(d: Double): (n: int32)
    requires FitsInt32(d)
    ensures ConvertsTo(d, n)
  {
    Trunc(d.value)
  }

  /** ECMAScript ToUint32, which `Value::Uint32Value` performs: NaN and the
      infinities become 0, a finite value is truncated and wrapped modulo 2^32. */
  function ToUint32(d: Double): (n: uint32)
    ensures !d.Finite? ==> n == 0
    ensures d.Finite? ==> (Trunc(d.value) - n) % UINT32_MODULUS == 0
    ensures d.Finite? && 0 <= Trunc(d.value) < UINT32_MODULUS ==> n == Trunc(d.value)
  {
    if d.Finite? then
      var t := Trunc(d.value);
      t % UINT32_MODULUS
    else 0
  }

  /** Conversion of an `unsigned int` to `int`.  C leaves values above
      INT32_MAX implementation-defined; GCC and Clang wrap them modulo 2^32. */
  function UnsignedToInt(u: uint32): (n: int32)
    ensures (u - n) % UINT32_MODULUS == 0
    ensures u <= INT32_MAX ==> n == u
  {
    if u <= INT32_MAX then u else u - UINT32_MODULUS
  }

  /** C's `n / 2` on an `int`: the quotient truncated toward zero. */
  function HalveTowardZero(n: int): (q: int)
    ensures n >= 0 ==> 0 <= n - 2 * q <= 1
    ensures n < 0 ==> -1 <= n - 2 * q <= 0
  {
    if n >= 0 then n / 2 else -((-n) / 2)
  }
}

=== FILE: errors.dfy ===
/** The error taxonomy: Imlib2's load/save error codes plus the binding's own
    FORMAT_UNACCEPTABLE, and the names the binding reports for them. */
module Errors {
  import opened Wrappers

  /** One constructor per member of `ImageErrorType_e`.  `NoError` is the
      zero code, the only one a C condition treats as success. */
  datatype ErrorCode =
    | NoError
    | FileDoesNotExist
    | FileIsDirectory
    | PermissionDeniedToRead
    | NoLoaderForFileFormat
    | PathTooLong
    | PathComponentNonExistant
    | PathComponentNotDirectory
    | PathPointsOutsideAddressSpace
    | TooManySymbolicLinks
    | OutOfMemory
    | OutOfFileDescriptors
    | PermissionDeniedToWrite
    | OutOfDiskSpace
    | Unknown
    | FormatUnacceptable

  /** The reverse reading of the name table: which code a reported name stands for. */
  function CodeNamed(name: string): Option<ErrorCode>
  {
    if name == "NONE" then Some(NoError)
    else if name == "FILE_DOES_NOT_EXIST" then Some(FileDoesNotExist)
    else if name == "FILE_IS_DIRECTORY" then Some(FileIsDirectory)
    else if name == "PERMISSION_DENIED_TO_READ" then Some(PermissionDeniedToRead)
    else if name == "NO_LOADER_FOR_FILE_FORMAT" then Some(NoLoaderForFileFormat)
    else if name == "PATH_TOO_LONG" then Some(PathTooLong)
    else if name == "PATH_COMPONENT_NON_EXISTANT" then Some(PathComponentNonExistant)
    else if name == "PATH_COMPONENT_NOT_DIRECTORY" then Some(PathComponentNotDirectory)
    else if name == "PATH_POINTS_OUTSIDE_ADDRESS_SPACE" then Some(PathPointsOutsideAddressSpace)
    else if name == "TOO_MANY_SYMBOLIC_LINKS" then Some(TooManySymbolicLinks)
    else if name == "OUT_OF_MEMORY" then Some(OutOfMemory)
    else if name == "OUT_OF_FILE_DESCRIPTORS" then Some(OutOfFileDescriptors)
    else if name == "PERMISSION_DENIED_TO_WRITE" then Some(PermissionDeniedToWrite)
    else if name == "OUT_OF_DISK_SPACE" then Some(OutOfDiskSpace)
    else if name == "UNACCEPTABLE_IMAGE_FORMAT" then Some(FormatUnacceptable)
    else if name == "UNKNOWN" then Some(Unknown)
    else None
  }

  /** `ImlibStrError`: the name reported for each code. */
  function ErrorName(e: ErrorCode): string
  {
    match e
    case NoError => "NONE"
    case FileDoesNotExist => "FILE_DOES_NOT_EXIST"
    case FileIsDirectory => "FILE_IS_DIRECTORY"
    case PermissionDeniedToRead => "PERMISSION_DENIED_TO_READ"
    case NoLoaderForFileFormat => "NO_LOADER_FOR_FILE_FORMAT"
    case PathTooLong => "PATH_TOO_LONG"
    case PathComponentNonExistant => "PATH_COMPONENT_NON_EXISTANT"
    case PathComponentNotDirectory => "PATH_COMPONENT_NOT_DIRECTORY"
    case PathPointsOutsideAddressSpace => "PATH_POINTS_OUTSIDE_ADDRESS_SPACE"
    case TooManySymbolicLinks => "TOO_MANY_SYMBOLIC_LINKS"
    case OutOfMemory => "OUT_OF_MEMORY"
    case OutOfFileDescriptors => "OUT_OF_FILE_DESCRIPTORS"
    case PermissionDeniedToWrite => "PERMISSION_DENIED_TO_WRITE"
    case OutOfDiskSpace => "OUT_OF_DISK_SPACE"
    case FormatUnacceptable => "UNACCEPTABLE_IMAGE_FORMAT"
    case Unknown => "UNKNOWN"
  }

  /** Every code has a name, and reading the name back gives the code. */
  lemma NameReadsBack(e: ErrorCode)
    ensures CodeNamed(ErrorName(e)) == Some(e)
  {
    match e
    case NoError => NoErrorReadsBack();
    case FileDoesNotExist => FileDoesNotExistReadsBack();
    case FileIsDirectory => FileIsDirectoryReadsBack();
    case PermissionDeniedToRead => PermissionDeniedToReadReadsBack();
    case NoLoaderForFileFormat => NoLoaderForFileFormatReadsBack();
    case PathTooLong => PathTooLongReadsBack();
    case PathComponentNonExistant => PathComponentNonExistantReadsBack();
    case PathComponentNotDirectory => PathComponentNotDirectoryReadsBack();
    case PathPointsOutsideAddressSpace => PathPointsOutsideAddressSpaceReadsBack();
    case TooManySymbolicLinks => TooManySymbolicLinksReadsBack();
    case OutOfMemory => OutOfMemoryReadsBack();
    case OutOfFileDescriptors => OutOfFileDescriptorsReadsBack();
    case PermissionDeniedToWrite => PermissionDeniedToWriteReadsBack();
    case OutOfDiskSpace => OutOfDiskSpaceReadsBack();
    case FormatUnacceptable => FormatUnacceptableReadsBack();
    case Unknown => UnknownReadsBack();
  }

  // `NameReadsBack` one code at a time: each code on its own keeps the
  // string comparisons the solver must refute few, where one lemma over all
  // sixteen codes is too costly.

  lemma NoErrorReadsBack()
    ensures CodeNamed(ErrorName(NoError)) == Some(NoError)
  {
  }

  lemma FileDoesNotExistReadsBack()
    ensures CodeNamed(ErrorName(FileDoesNotExist)) == Some(FileDoesNotExist)
  {
  }

  lemma FileIsDirectoryReadsBack()
    ensures CodeNamed(ErrorName(FileIsDirectory)) == Some(FileIsDirectory)
  {
  }

  lemma PermissionDeniedToReadReadsBack()
    ensures CodeNamed(ErrorName(PermissionDeniedToRead)) == Some(PermissionDeniedToRead)
  {
  }

  lemma NoLoaderForFileFormatReadsBack()
    ensures CodeNamed(ErrorName(NoLoaderForFileFormat)) == Some(NoLoaderForFileFormat)
  {
  }

  lemma PathTooLongReadsBack()
    ensures CodeNamed(ErrorName(PathTooLong)) == Some(PathTooLong)
  {
  }

  lemma PathComponentNonExistantReadsBack()
    ensures CodeNamed(ErrorName(PathComponentNonExistant)) == Some(PathComponentNonExistant)
  {
  }

  lemma PathComponentNotDirectoryReadsBack()
    ensures CodeNamed(ErrorName(PathComponentNotDirectory)) == Some(PathComponentNotDirectory)
  {
  }

  lemma PathPointsOutsideAddressSpaceReadsBack()
    ensures CodeNamed(ErrorName(PathPointsOutsideAddressSpace)) == Some(PathPointsOutsideAddressSpace)
  {
  }

  lemma TooManySymbolicLinksReadsBack()
    ensures CodeNamed(ErrorName(TooManySymbolicLinks)) == Some(TooManySymbolicLinks)
  {
  }

  lemma OutOfMemoryReadsBack()
    ensures CodeNamed(ErrorName(OutOfMemory)) == Some(OutOfMemory)
  {
  }

  lemma OutOfFileDescriptorsReadsBack()
    ensures CodeNamed(ErrorName(OutOfFileDescriptors)) == Some(OutOfFileDescriptors)
  {
  }

  lemma PermissionDeniedToWriteReadsBack()
    ensures CodeNamed(ErrorName(PermissionDeniedToWrite)) == Some(PermissionDeniedToWrite)
  {
  }

  lemma OutOfDiskSpaceReadsBack()
    ensures CodeNamed(ErrorName(OutOfDiskSpace)) == Some(OutOfDiskSpace)
  {
  }

  lemma FormatUnacceptableReadsBack()
    ensures CodeNamed(ErrorName(FormatUnacceptable)) == Some(FormatUnacceptable)
  {
  }

  lemma UnknownReadsBack()
    ensures CodeNamed(ErrorName(Unknown)) == Some(Unknown)
  {
    // The name is shorter than every other name but "NONE".
    assert |ErrorName(Unknown)| == 7;
  }

  /** "NONE" is reported for success only, and the binding's own code has
      the name its callers look for. */
  lemma SuccessNamedNone(e: ErrorCode)
    ensures e == NoError <==> ErrorName(e) == "NONE"
    ensures e == FormatUnacceptable <==> ErrorName(e) == "UNACCEPTABLE_IMAGE_FORMAT"
  {
    NameReadsBack(e);
    NoErrorReadsBack();
    FormatUnacceptableReadsBack();
  }

  /** Distinct codes are reported under distinct names. */
  lemma ErrorNamesDistinct(a: ErrorCode, b: ErrorCode)
    ensures ErrorName(a) == ErrorName(b) <==> a == b
  {
    if ErrorName(a) == ErrorName(b) {
      NameReadsBack(a);
      NameReadsBack(b);
      assert Some(a) == CodeNamed(ErrorName(a)) == CodeNamed(ErrorName(b)) == Some(b);
    }
  }
}

=== FILE: handle.dfy ===
/** The state of one `Imlib2` handle: what the constructor sets, what a load
    fills in, and the property accessors (`format`, `quality`, `rawWidth`,
    `rawHeight`, `width`, `height`).  The Imlib2 image itself is abstracted to
    its dimensions. */
module Handles {
  import opened Wrappers
  import opened Doubles
  import opened Values
  import opened Errors

  /** The source's `ImageSize`: two C ints and a cached double aspect ratio. */
  datatype ImageSize = ImageSize(w: int32, h: int32, aspect: Double)

  /** The staged resize target; its aspect member is never set or read. */
  datatype Dims = Dims(w: int32, h: int32)

  /** An Imlib2 image, reduced to its width and height. */
  datatype Image = Image(w: int32, h: int32)

  /** The fields of the C++ `Imlib2` object that the core reads or writes.
      `format` is the format detected at load and `formatTo` the one requested
      for saving; `None` stands for NULL. */
  datatype Handle = Handle(
    src: string,
    img: Option<Image>,
    format: Option<string>,
    formatTo: Option<string>,
    quality: uint32,
    scale: Double,
    cropped: bool,
    resized: bool,
    x: int32,
    y: int32,
    size: ImageSize,
    crop: ImageSize,
    resize: Dims)

  /** `(double)w / (double)h`, the way every aspect in the source is computed. */
  function Quotient(w: int32, h: int32): Double
  {
    Div(FromInt(w), FromInt(h))
  }

  /** The state of a handle whose image was decoded with a plausible size:
      the aspect caches agree with their integer sides, the quality is in
      range, and the image is the natural size. */
  predicate Loaded(h: Handle)
  {
    && h.img == Some(Image(h.size.w, h.size.h))
    && h.size.w >= 1 && h.size.h >= 1
    && h.size.aspect == Quotient(h.size.w, h.size.h)
    && h.crop.aspect == Quotient(h.crop.w, h.crop.h)
    && h.quality <= 100
    && h.format.Some?
  }

  /** Imlib2 decodes images of positive width and height only. */
  predicate Plausible(img: Image)
  {
    img.w >= 1 && img.h >= 1
  }

  // The property getters.

  function RawWidth(h: Handle): int32
  {
    h.size.w
  }

  function RawHeight(h: Handle): int32
  {
    h.size.h
  }

  /** `width`: the resize target once a resize is staged, otherwise the crop
      width (which a load primes to the natural width). */
  function Width(h: Handle): int32
  {
    if h.resized then h.resize.w else h.crop.w
  }

  function Height(h: Handle): int32
  {
    if h.resized then h.resize.h else h.crop.h
  }

  function Quality(h: Handle): uint32
  {
    h.quality
  }

  /** `format` reads the detected format, never the one assigned for saving. */
  function Format(h: Handle): Option<string>
  {
    h.format
  }

  /** The constructor: nothing loaded, nothing staged, quality 100. */
  function Fresh(src: string): (h: Handle)
    ensures h.src == src && h.img.None? && h.format.None? && h.formatTo.None?
    ensures !h.cropped && !h.resized && h.quality == 100
    ensures h.x == 0 && h.y == 0
    ensures Width(h) == 0 && Height(h) == 0 && RawWidth(h) == 0 && RawHeight(h) == 0
  {
    Handle(src, None, None, None, 100, Finite(100.0), false, false, 0, 0,
           ImageSize(0, 0, Finite(1.0)), ImageSize(0, 0, Finite(1.0)), Dims(0, 0))
  }

  /** What `imlib_load_image_with_error_return` gives back: an error code and,
      when the code is `NoError`, the image and its format name. */
  datatype LoadReply = LoadReply(code: ErrorCode, image: Image, format: string)

  /** A handle after a library call, with the error name the call produced. */
  datatype Attempt = Attempt(handle: Handle, error: Option<string>)

  /** `createContext`: load the source image.  On success the natural size
      primes the crop and the resize so that "nothing staged" is the identity;
      the staging flags, offsets and quality are left as they were. */
  function CreateContext(h: Handle, reply: LoadReply): (r: Attempt)
    ensures r.error.Some? <==> reply.code != NoError
    ensures r.error.Some? ==> r.error.value == ErrorName(reply.code) && r.handle == h.(img := None)
    ensures r.error.None? ==>
      && r.handle.img == Some(reply.image)
      && r.handle.format == Some(reply.format)
      && RawWidth(r.handle) == Width(r.handle) == reply.image.w
      && RawHeight(r.handle) == Height(r.handle) == reply.image.h
      && r.handle.crop == r.handle.size
      && r.handle.(img := h.img, format := h.format, size := h.size, crop := h.crop, resize := h.resize) == h
    ensures r.error.None? && Plausible(reply.image) && h.quality <= 100 ==> Loaded(r.handle)
  {
    if reply.code != NoError then
      Attempt(h.(img := None), Some(ErrorName(reply.code)))
    else
      var w := reply.image.w;
      var ht := reply.image.h;
      var natural := ImageSize(w, ht, Quotient(w, ht));
      Attempt(h.(img := Some(reply.image), format := Some(reply.format),
                 size := natural, crop := natural, resize := Dims(w, ht)),
              None)
  }

  /** The `quality` setter: a number is converted with `Uint32Value` and
      saturated at 100; anything else is ignored. */
  function SetQuality(h: Handle, v: Value): (r: Handle)
    ensures !IsNumber(v) ==> r == h
    ensures IsNumber(v) ==> r == h.(quality := r.quality) && r.quality <= 100
    ensures IsNumber(v) && Uint32Value(v) <= 100 ==> r.quality == Uint32Value(v)
    ensures IsNumber(v) && Uint32Value(v) > 100 ==> r.quality == 100
  {
    if IsNumber(v) then
      var q := Uint32Value(v);
      h.(quality := if q > 100 then 100 else q)
    else h
  }

  /** A whole number from 0 to 100 assigned to `quality` reads back unchanged. */
  lemma QualityReadsBack(h: Handle, n: int)
    requires 0 <= n <= 100
    ensures Quality(SetQuality(h, Number(FromInt(n)))) == n
  {
    assert Trunc(n as real) == n;
  }

  /** Assigning -1 saturates to 100: ToUint32 wraps it to 2^32 - 1 first. */
  lemma NegativeQualitySaturates(h: Handle)
    ensures Quality(SetQuality(h, Number(FromInt(-1)))) == 100
  {
    assert Trunc(-1.0) == -1;
    assert ToUint32(FromInt(-1)) == UINT32_MODULUS - 1;
  }

  /** The `format` setter: a non-empty string becomes the save format, as the
      C string copied from it; anything else is ignored.  The `format` getter
      is unaffected. */
  function SetFormat(h: Handle, v: Value): (r: Handle)
    ensures IsNonEmptyString(v) ==> r == h.(formatTo := Some(CString(v.chars)))
    ensures !IsNonEmptyString(v) ==> r == h
    ensures Format(r) == Format(h)
  {
    if IsNonEmptyString(v) then h.(formatTo := Some(CString(v.chars))) else h
  }
}

=== FILE: planner.dfy ===
/** The staged-transform planner: `crop`, `scale`, `resize`, `resizeByWidth`
    and `resizeByHeight` after their arguments have been checked.  None of
    them touches the image; they only record geometry that `save` applies.
    Each requires that the float-to-int conversions it performs are defined
    in C (finite and within `int` range); outside that the source's behaviour
    is undefined and the model says nothing. */
module Planner {
  import opened Wrappers
  import opened Doubles
  import opened Values
  import opened Handles

  // `ImageAlign_e`: the horizontal and vertical names share ordinals, so one
  // code means LEFT or TOP, CENTER or MIDDLE, RIGHT or BOTTOM depending on
  // which crop branch runs.
  const ALIGN_START: uint32 := 1
  const ALIGN_CENTER: uint32 := 2
  const ALIGN_END: uint32 := 3

  /** The alignment codes that move the crop; every other code, and a missing
      or non-number align argument, keeps the previous offset. */
  predicate Places(align: Option<uint32>)
  {
    align == Some(ALIGN_START) || align == Some(ALIGN_CENTER) || align == Some(ALIGN_END)
  }

  /** What an offset along one axis means after an alignment code: flush with
      the start, centred (the start margin at most one pixel smaller than the
      end margin), flush with the end, or unchanged. */
  predicate Aligned(off: int, previous: int, natural: int, extent: int, align: Option<uint32>)
  {
    var margin := natural - extent;
    if align == Some(ALIGN_START) then off == 0
    else if align == Some(ALIGN_CENTER) then
      && (margin >= 0 ==> off <= margin - off <= off + 1)
      && (margin < 0 ==> off - 1 <= margin - off <= off)
    else if align == Some(ALIGN_END) then off + extent == natural
    else off == previous
  }

  /** Centring and end alignment compute `natural - extent` in C `int`. */
  predicate OffsetDefined(natural: int32, extent: int32, align: Option<uint32>)
  {
    align == Some(ALIGN_CENTER) || align == Some(ALIGN_END) ==>
      INT32_MIN <= natural - extent <= INT32_MAX
  }

  function Offset(previous: int32, natural: int32, extent: int32, align: Option<uint32>): (off: int32)
    requires OffsetDefined(natural, extent, align)
    ensures Aligned(off, previous, natural, extent, align)
  {
    if align == Some(ALIGN_START) then 0
    else if align == Some(ALIGN_CENTER) then HalveTowardZero(natural - extent)
    else if align == Some(ALIGN_END) then natural - extent
    else previous
  }

  // ---------------------------------------------------------------- crop

  /** The conversions `crop` makes are defined in C. */
  predicate CropDefined(h: Handle, aspect: Double, align: Option<uint32>)
  {
    if Less(aspect, h.size.aspect) then NarrowDefined(h, aspect, align)
    else if Less(h.size.aspect, aspect) then ShortenDefined(h, aspect, align)
    else true
  }

  predicate NarrowDefined(h: Handle, aspect: Double, align: Option<uint32>)
  {
    var cw := Mul(FromInt(h.size.h), aspect);
    FitsInt32(cw) && OffsetDefined(h.size.w, ToInt32(cw), align)
  }

  predicate ShortenDefined(h: Handle, aspect: Double, align: Option<uint32>)
  {
    var ch := Div(FromInt(h.size.w), aspect);
    FitsInt32(ch) && OffsetDefined(h.size.h, ToInt32(ch), align)
  }

  datatype CropResult = CropResult(handle: Handle, staged: bool)

  /** `r` is `h` with a crop staged that keeps the natural height and narrows
      the width to `aspect` times that height, truncated, with `x` placed by
      `align`; nothing else changes. */
  predicate NarrowedCrop(h: Handle, aspect: Double, align: Option<uint32>, r: Handle)
  {
    && aspect.Finite?
    && r.crop.h == h.size.h
    && ConvertsTo(Mul(FromInt(h.size.h), aspect), r.crop.w)
    && r.crop.aspect == Quotient(r.crop.w, r.crop.h)
    && Aligned(r.x, h.x, h.size.w, r.crop.w, align)
    && r == h.(cropped := true, crop := r.crop, x := r.x)
  }

  /** `r` is `h` with a crop staged that keeps the natural width and shortens
      the height to that width over `aspect`, truncated (0 for an infinite
      `aspect`), with `y` placed by `align`; nothing else changes. */
  predicate ShortenedCrop(h: Handle, aspect: Double, align: Option<uint32>, r: Handle)
  {
    && r.crop.w == h.size.w
    && ConvertsTo(Div(FromInt(h.size.w), aspect), r.crop.h)
    && (!aspect.Finite? ==> r.crop.h == 0)
    && r.crop.aspect == Quotient(r.crop.w, r.crop.h)
    && Aligned(r.y, h.y, h.size.h, r.crop.h, align)
    && r == h.(cropped := true, crop := r.crop, y := r.y)
  }

  /** `crop(aspect, align)` once `aspect` has passed the check that it is
      not 0.  A natural image wider than `aspect` keeps its height and
      narrows; a taller one keeps its width and shortens; an exact match, or a
      NaN aspect (which compares false both ways), unstages any crop.  The
      crop is always computed from the natural size. */
  function Crop(h: Handle, aspect: Double, align: Option<uint32>): (r: CropResult)
    requires Truthy(aspect)
    requires CropDefined(h, aspect, align)
    ensures r.staged == r.handle.cropped
    ensures r.staged <==> Less(aspect, h.size.aspect) || Less(h.size.aspect, aspect)
    ensures !r.staged ==> r.handle == h.(cropped := false)
    ensures Less(aspect, h.size.aspect) ==> NarrowedCrop(h, aspect, align, r.handle)
    ensures Less(h.size.aspect, aspect) ==> ShortenedCrop(h, aspect, align, r.handle)
  {
    if Less(aspect, h.size.aspect) then CropResult(Narrowed(h, aspect, align), true)
    else if Less(h.size.aspect, aspect) then CropResult(Shortened(h, aspect, align), true)
    else CropResult(h.(cropped := false), false)
  }

  /** The branch for a natural image wider than requested. */
  function Narrowed(h: Handle, aspect: Double, align: Option<uint32>): (r: Handle)
    requires NarrowDefined(h, aspect, align)
    ensures NarrowedCrop(h, aspect, align, r)
  {
    FiniteProduct(FromInt(h.size.h), aspect);
    var cw := ToInt32(Mul(FromInt(h.size.h), aspect));
    var ch := h.size.h;
    h.(cropped := true, crop := ImageSize(cw, ch, Quotient(cw, ch)), x := Offset(h.x, h.size.w, cw, align))
  }

  /** The branch for a natural image taller than requested. */
  function Shortened(h: Handle, aspect: Double, align: Option<uint32>): (r: Handle)
    requires ShortenDefined(h, aspect, align)
    ensures ShortenedCrop(h, aspect, align, r)
  {
    FiniteQuotient(FromInt(h.size.w), aspect);
    var ch := ToInt32(Div(FromInt(h.size.w), aspect));
    var cw := h.size.w;
    h.(cropped := true, crop := ImageSize(cw, ch, Quotient(cw, ch)), y := Offset(h.y, h.size.h, ch, align))
  }

  /** The staged side, read in real arithmetic: a narrowed width is the
      natural height times `aspect`, truncated; a shortened height is the
      natural width over `aspect`, truncated, or 0 for an infinite `aspect`. */
  lemma CropSidesTruncate(h: Handle, aspect: Double, align: Option<uint32>)
    requires Truthy(aspect) && CropDefined(h, aspect, align)
    ensures var r := Crop(h, aspect, align).handle;
      Less(aspect, h.size.aspect) ==>
        aspect.Finite? && TruncatesTo(h.size.h as real * aspect.value, r.crop.w)
    ensures var r := Crop(h, aspect, align).handle;
      Less(h.size.aspect, aspect) ==>
        && (aspect.Finite? ==> aspect.value != 0.0 && TruncatesTo(h.size.w as real / aspect.value, r.crop.h))
        && (!aspect.Finite? ==> r.crop.h == 0)
  {
    if Less(aspect, h.size.aspect) {
      assert Crop(h, aspect, align).handle == Narrowed(h, aspect, align);
      NarrowedWidthTruncates(h, aspect, align);
    } else if Less(h.size.aspect, aspect) {
      assert Crop(h, aspect, align).handle == Shortened(h, aspect, align);
      ShortenedHeightTruncates(h, aspect, align);
    }
  }

  lemma NarrowedWidthTruncates(h: Handle, aspect: Double, align: Option<uint32>)
    requires NarrowDefined(h, aspect, align)
    ensures aspect.Finite?
    ensures TruncatesTo(h.size.h as real * aspect.value, Narrowed(h, aspect, align).crop.w)
  {
    var r := Narrowed(h, aspect, align);
    FiniteProduct(FromInt(h.size.h), aspect);
    SameTruncation(Mul(FromInt(h.size.h), aspect).value, h.size.h as real * aspect.value, r.crop.w);
  }

  lemma ShortenedHeightTruncates(h: Handle, aspect: Double, align: Option<uint32>)
    requires ShortenDefined(h, aspect, align)
    ensures aspect.Finite? ==>
      aspect.value != 0.0 && TruncatesTo(h.size.w as real / aspect.value, Shortened(h, aspect, align).crop.h)
    ensures !aspect.Finite? ==> Shortened(h, aspect, align).crop.h == 0
  {
    var r := Shortened(h, aspect, align);
    FiniteQuotient(FromInt(h.size.w), aspect);
    if aspect.Finite? {
      SameTruncation(Div(FromInt(h.size.w), aspect).value, h.size.w as real / aspect.value, r.crop.h);
    }
  }

  lemma SameTruncation(p: real, q: real, n: int)
    requires p == q && TruncatesTo(p, n)
    ensures TruncatesTo(q, n)
  {
  }

  /** On a loaded image, `crop` stages a crop exactly when the requested
      aspect is a number that differs from the natural one: NaN, like the
      natural aspect itself, unstages. */
  lemma CropStagesUnlessAspectMatches(h: Handle, aspect: Double, align: Option<uint32>)
    requires Loaded(h) && Truthy(aspect) && CropDefined(h, aspect, align)
    ensures Crop(h, aspect, align).staged <==> !aspect.NaN? && aspect != h.size.aspect
    ensures !Crop(h, aspect, align).staged ==> !Crop(h, aspect, align).handle.cropped
  {
    if !aspect.NaN? {
      LessTrichotomy(aspect, h.size.aspect);
    }
  }

  /** For a positive aspect on a loaded image, the crop is strictly smaller
      than the image along the axis it narrows, and an offset set by this call
      keeps the crop inside the image. */
  lemma CropStaysInside(h: Handle, aspect: Double, align: Option<uint32>)
    requires Loaded(h) && aspect.Finite? && aspect.value > 0.0
    requires CropDefined(h, aspect, align)
    ensures var r := Crop(h, aspect, align).handle;
      Less(aspect, h.size.aspect) ==>
        && 0 <= r.crop.w < h.size.w
        && (Places(align) ==> 0 <= r.x && r.x + r.crop.w <= h.size.w)
    ensures var r := Crop(h, aspect, align).handle;
      Less(h.size.aspect, aspect) ==>
        && 0 <= r.crop.h < h.size.h
        && (Places(align) ==> 0 <= r.y && r.y + r.crop.h <= h.size.h)
  {
    var r := Crop(h, aspect, align).handle;
    var sw, sh, a := h.size.w as real, h.size.h as real, aspect.value;
    assert h.size.aspect == Finite(sw / sh);
    CropSidesTruncate(h, aspect, align);
    if Less(aspect, h.size.aspect) {
      NarrowedSideInside(sw, sh, a, r.crop.w);
    } else if Less(h.size.aspect, aspect) {
      ShortenedSideInside(sw, sh, a, r.crop.h);
    }
  }

  lemma NarrowedSideInside(sw: real, sh: real, a: real, cw: int)
    requires sw >= 1.0 && sh >= 1.0 && a > 0.0 && a < sw / sh
    requires TruncatesTo(sh * a, cw)
    ensures 0 <= cw && (cw as real) < sw
  {
    MulLt(a, sw / sh, sh);
    DivMulCancel(sw, sh);
    MulPos(sh, a);
  }

  lemma ShortenedSideInside(sw: real, sh: real, a: real, ch: int)
    requires sw >= 1.0 && sh >= 1.0 && a > 0.0 && sw / sh < a
    requires TruncatesTo(sw / a, ch)
    ensures 0 <= ch && (ch as real) < sh
  {
    MulLt(sw / sh, a, sh);
    DivMulCancel(sw, sh);
    DivLt(sw, a * sh, a);
    MulDivCancel(sh, a);
    DivPos(sw, a);
  }

  /** The crop's own aspect is the requested one up to the pixel it lost to
      truncation: a narrowed crop is never wider than asked and misses by less
      than one column; a shortened crop is never taller than asked and misses
      by less than one row. */
  lemma CropApproximatesAspect(h: Handle, aspect: Double, align: Option<uint32>)
    requires Loaded(h) && aspect.Finite? && aspect.value > 0.0
    requires CropDefined(h, aspect, align)
    ensures var r := Crop(h, aspect, align).handle;
      Less(aspect, h.size.aspect) ==>
        && r.crop.aspect == Finite(r.crop.w as real / h.size.h as real)
        && r.crop.aspect.value <= aspect.value < (r.crop.w + 1) as real / h.size.h as real
    ensures var r := Crop(h, aspect, align).handle;
      Less(h.size.aspect, aspect) && r.crop.h >= 1 ==>
        && r.crop.aspect == Finite(h.size.w as real / r.crop.h as real)
        && h.size.w as real / (r.crop.h + 1) as real < aspect.value <= r.crop.aspect.value
  {
    if Less(aspect, h.size.aspect) {
      NarrowedCropAspect(h, aspect, align);
    } else if Less(h.size.aspect, aspect) {
      ShortenedCropAspect(h, aspect, align);
    }
  }

  lemma NarrowedCropAspect(h: Handle, aspect: Double, align: Option<uint32>)
    requires Loaded(h) && aspect.Finite? && aspect.value > 0.0
    requires CropDefined(h, aspect, align) && Less(aspect, h.size.aspect)
    ensures var r := Crop(h, aspect, align).handle;
      && r.crop.aspect == Finite(r.crop.w as real / h.size.h as real)
      && r.crop.aspect.value <= aspect.value < (r.crop.w + 1) as real / h.size.h as real
  {
    var r := Narrowed(h, aspect, align);
    assert Crop(h, aspect, align).handle == r;
    NarrowedWidthTruncates(h, aspect, align);
    var sh, a := h.size.h as real, aspect.value;
    NarrowedAspect(sh, a, r.crop.w);
    assert r.crop.aspect == Div(Finite(r.crop.w as real), Finite(sh));
  }

  lemma ShortenedCropAspect(h: Handle, aspect: Double, align: Option<uint32>)
    requires Loaded(h) && aspect.Finite? && aspect.value > 0.0
    requires CropDefined(h, aspect, align) && Less(h.size.aspect, aspect)
    ensures var r := Crop(h, aspect, align).handle;
      r.crop.h >= 1 ==>
        && r.crop.aspect == Finite(h.size.w as real / r.crop.h as real)
        && h.size.w as real / (r.crop.h + 1) as real < aspect.value <= r.crop.aspect.value
  {
    var r := Shortened(h, aspect, align);
    assert Crop(h, aspect, align).handle == r;
    ShortenedHeightTruncates(h, aspect, align);
    var sw, a := h.size.w as real, aspect.value;
    if r.crop.h >= 1 {
      ShortenedAspect(sw, a, r.crop.h);
      assert r.crop.aspect == Div(Finite(sw), Finite(r.crop.h as real));
    }
  }

  lemma NarrowedAspect(sh: real, a: real, cw: int)
    requires sh >= 1.0 && a > 0.0
    requires TruncatesTo(sh * a, cw)
    ensures cw as real / sh <= a < (cw + 1) as real / sh
  {
    MulPos(sh, a);
    DivLe(cw as real, sh * a, sh);
    DivLt(sh * a, cw as real + 1.0, sh);
    MulDivCancel(a, sh);
  }

  lemma ShortenedAspect(sw: real, a: real, ch: int)
    requires sw >= 1.0 && a > 0.0 && ch >= 1
    requires TruncatesTo(sw / a, ch)
    ensures sw / (ch + 1) as real < a <= sw / ch as real
  {
    var c := ch as real;
    assert c <= sw / a < c + 1.0;
    BelowQuotient(sw, a, c);
    AboveQuotient(sw, a, c + 1.0);
    assert (ch + 1) as real == c + 1.0;
  }

  /** `c <= sw / a` turned around: `a <= sw / c`. */
  lemma BelowQuotient(sw: real, a: real, c: real)
    requires a > 0.0 && c > 0.0 && c <= sw / a
    ensures a <= sw / c
  {
    MulLe(c, sw / a, a);
    DivMulCancel(sw, a);
    DivLe(c * a, sw, c);
    MulDivCancel(a, c);
  }

  /** `sw / a < d` turned around: `sw / d < a`. */
  lemma AboveQuotient(sw: real, a: real, d: real)
    requires a > 0.0 && d > 0.0 && sw / a < d
    ensures sw / d < a
  {
    MulLt(sw / a, d, a);
    DivMulCancel(sw, a);
    DivLt(sw, d * a, d);
    MulDivCancel(a, d);
  }

  /** Cropping twice with the same arguments is the same as cropping once:
      the crop depends on the natural size only, not on an earlier crop. */
  lemma CropIdempotent(h: Handle, aspect: Double, align: Option<uint32>)
    requires Truthy(aspect) && CropDefined(h, aspect, align)
    ensures var r := Crop(h, aspect, align);
      CropDefined(r.handle, aspect, align) && Crop(r.handle, aspect, align) == r
  {
  }

  // Steps of real arithmetic the solver does not take by itself.

  lemma MulPos(p: real, q: real)
    requires p > 0.0 && q > 0.0
    ensures p * q > 0.0 && q * p > 0.0
  {
  }

  lemma DivPos(p: real, q: real)
    requires p > 0.0 && q > 0.0
    ensures p / q > 0.0
  {
  }

  lemma MulLe(p: real, q: real, c: real)
    requires p <= q && c > 0.0
    ensures p * c <= q * c
  {
  }

  lemma MulLt(p: real, q: real, c: real)
    requires p < q && c > 0.0
    ensures p * c < q * c
  {
  }

  lemma DivLe(p: real, q: real, c: real)
    requires p <= q && c > 0.0
    ensures p / c <= q / c
  {
  }

  lemma DivLt(p: real, q: real, c: real)
    requires p < q && c > 0.0
    ensures p / c < q / c
  {
  }

  lemma DivMulCancel(p: real, c: real)
    requires c != 0.0
    ensures (p / c) * c == p
  {
  }

  lemma MulDivCancel(p: real, c: real)
    requires c != 0.0
    ensures (p * c) / c == p && (c * p) / c == p
  {
  }

  // ----------------------------------------------------------- resize base

  /** The region every resize variant scales: the staged crop if there is one,
      otherwise the natural image, as read at the time of the call. */
  function BaseWidth(h: Handle): int32
  {
    if h.cropped then h.crop.w else h.size.w
  }

  function BaseHeight(h: Handle): int32
  {
    if h.cropped then h.crop.h else h.size.h
  }

  function BaseAspect(h: Handle): Double
  {
    if h.cropped then h.crop.aspect else h.size.aspect
  }

  // --------------------------------------------------------------- scale

  /** `scale` rejects `per` only when `per <= 0.0` holds, so NaN passes. */
  predicate ScaleAccepts(per: Double)
  {
    !LessOrEqual(per, Finite(0.0))
  }

  /** `(extent / 100) * per` in doubles. */
  function Percent(extent: int32, per: Double): Double
  {
    Mul(Div(FromInt(extent), Finite(100.0)), per)
  }

  predicate ScaleDefined(h: Handle, per: Double)
  {
    FitsInt32(Percent(BaseWidth(h), per)) && FitsInt32(Percent(BaseHeight(h), per))
  }

  /** `scale(per)`: stage a resize to `per` percent of the base region, each
      side truncated on its own.  A NaN or infinite `per` passes the argument
      check but makes the conversion undefined, so only finite positive
      percentages remain. */
  function Scale(h: Handle, per: Double): (r: Handle)
    requires ScaleAccepts(per) && ScaleDefined(h, per)
    ensures per.Finite? && per.value > 0.0
    ensures r.resized && r.scale == per
    ensures ConvertsTo(Percent(BaseWidth(h), per), r.resize.w)
    ensures ConvertsTo(Percent(BaseHeight(h), per), r.resize.h)
    ensures r.(resized := h.resized, resize := h.resize, scale := h.scale) == h
  {
    var w := ToInt32(Percent(BaseWidth(h), per));
    var ht := ToInt32(Percent(BaseHeight(h), per));
    h.(scale := per, resize := Dims(w, ht), resized := true)
  }

  /** Read in real arithmetic, a side converted from `Percent` is `per`
      percent of the extent, truncated. */
  lemma PercentTruncates(extent: int32, per: Double, n: int)
    requires ConvertsTo(Percent(extent, per), n)
    ensures per.Finite? && TruncatesTo(extent as real * per.value / 100.0, n)
  {
    FiniteProduct(Div(FromInt(extent), Finite(100.0)), per);
    PercentOfExtent(extent as real, per.value);
    SameTruncation(Percent(extent, per).value, extent as real * per.value / 100.0, n);
  }

  lemma PercentOfExtent(e: real, p: real)
    ensures (e / 100.0) * p == e * p / 100.0
  {
  }

  /** Scaling by 100 percent makes the handle report exactly its base region. */
  lemma ScaleByHundredKeepsBase(h: Handle)
    ensures ScaleDefined(h, Finite(100.0))
    ensures Width(Scale(h, Finite(100.0))) == BaseWidth(h)
    ensures Height(Scale(h, Finite(100.0))) == BaseHeight(h)
  {
    var bw, bh := BaseWidth(h) as real, BaseHeight(h) as real;
    assert (bw / 100.0) * 100.0 == bw;
    assert (bh / 100.0) * 100.0 == bh;
    assert Trunc(bw) == BaseWidth(h);
    assert Trunc(bh) == BaseHeight(h);
  }

  // -------------------------------------------------------------- resize

  /** `resize(width, height)` once both are at least 1: a request equal to the
      base region changes nothing (even if an earlier resize is staged);
      anything else is stored, converted from `unsigned int` to `int`. */
  function Resize(h: Handle, width: uint32, height: uint32): (r: Handle)
    requires width >= 1 && height >= 1
    ensures width == BaseWidth(h) && height == BaseHeight(h) ==> r == h
    ensures width != BaseWidth(h) || height != BaseHeight(h) ==>
      && r.resized
      && r.resize.w == UnsignedToInt(width)
      && r.resize.h == UnsignedToInt(height)
      && (width <= INT32_MAX ==> Width(r) == width)
      && (height <= INT32_MAX ==> Height(r) == height)
    ensures r.(resized := h.resized, resize := h.resize) == h
  {
    if BaseWidth(h) != width || BaseHeight(h) != height then
      h.(resize := Dims(UnsignedToInt(width), UnsignedToInt(height)), resized := true)
    else h
  }

  predicate ByWidthDefined(h: Handle, width: uint32)
  {
    width != BaseWidth(h) ==> FitsInt32(Div(FromInt(width), BaseAspect(h)))
  }

  /** `resizeByWidth(width)`: a request equal to the base width changes
      nothing; otherwise the width is stored and the height derived as
      `width / aspect` of the base region, truncated. */
  function ResizeByWidth(h: Handle, width: uint32): (r: Handle)
    requires width >= 1 && ByWidthDefined(h, width)
    ensures width == BaseWidth(h) ==> r == h
    ensures width != BaseWidth(h) ==>
      && r.resized
      && r.resize.w == UnsignedToInt(width)
      && (width <= INT32_MAX ==> Width(r) == width)
      && (BaseAspect(h).Finite? ==>
            BaseAspect(h).value != 0.0 && TruncatesTo(width as real / BaseAspect(h).value, r.resize.h))
      && (!BaseAspect(h).Finite? ==> r.resize.h == 0)
    ensures r.(resized := h.resized, resize := h.resize) == h
  {
    if BaseWidth(h) != width then
      h.(resize := Dims(UnsignedToInt(width), ToInt32(Div(FromInt(width), BaseAspect(h)))),
         resized := true)
    else h
  }

  predicate ByHeightDefined(h: Handle, height: uint32)
  {
    height != BaseHeight(h) ==> FitsInt32(Mul(FromInt(height), BaseAspect(h)))
  }

  /** `resizeByHeight(height)`: the mirror image of `ResizeByWidth`, deriving
      the width as `height * aspect`. */
  function ResizeByHeight(h: Handle, height: uint32): (r: Handle)
    requires height >= 1 && ByHeightDefined(h, height)
    ensures height == BaseHeight(h) ==> r == h
    ensures height != BaseHeight(h) ==>
      && r.resized
      && r.resize.h == UnsignedToInt(height)
      && (height <= INT32_MAX ==> Height(r) == height)
      && BaseAspect(h).Finite?
      && TruncatesTo(height as real * BaseAspect(h).value, r.resize.w)
    ensures r.(resized := h.resized, resize := h.resize) == h
  {
    if BaseHeight(h) != height then
      h.(resize := Dims(ToInt32(Mul(FromInt(height), BaseAspect(h))), UnsignedToInt(height)),
         resized := true)
    else h
  }

  // Staging a resize never changes the base region, so repeating the same
  // request changes nothing more.

  lemma ScaleIdempotent(h: Handle, per: Double)
    requires ScaleAccepts(per) && ScaleDefined(h, per)
    ensures ScaleDefined(Scale(h, per), per) && Scale(Scale(h, per), per) == Scale(h, per)
  {
  }

  lemma ResizeIdempotent(h: Handle, width: uint32, height: uint32)
    requires width >= 1 && height >= 1
    ensures Resize(Resize(h, width, height), width, height) == Resize(h, width, height)
  {
  }

  lemma ResizeByWidthIdempotent(h: Handle, width: uint32)
    requires width >= 1 && ByWidthDefined(h, width)
    ensures ByWidthDefined(ResizeByWidth(h, width), width)
    ensures ResizeByWidth(ResizeByWidth(h, width), width) == ResizeByWidth(h, width)
  {
  }

  lemma ResizeByHeightIdempotent(h: Handle, height: uint32)
    requires height >= 1 && ByHeightDefined(h, height)
    ensures ByHeightDefined(ResizeByHeight(h, height), height)
    ensures ResizeByHeight(ResizeByHeight(h, height), height) == ResizeByHeight(h, height)
  {
  }

  /** On a loaded handle the base aspect is the quotient of the base sides. */
  lemma LoadedBaseAspect(h: Handle)
    requires Loaded(h)
    ensures BaseAspect(h) == Quotient(BaseWidth(h), BaseHeight(h))
  {
  }

  /** On a loaded handle the derived height keeps the base region's
      proportions: read in exact arithmetic it is `width * baseHeight /
      baseWidth`, truncated.  This covers a base region of negative width (a
      crop to a negative aspect) and one of zero height, whose infinite aspect
      derives 0.  A zero base width is no restriction: `ByWidthDefined` rules
      it out (`ByWidthNeedsBaseWidth`). */
  lemma ResizeByWidthKeepsProportion(h: Handle, width: uint32)
    requires Loaded(h) && BaseWidth(h) != 0
    requires width >= 1 && width != BaseWidth(h) && ByWidthDefined(h, width)
    ensures TruncatesTo(width as real * BaseHeight(h) as real / BaseWidth(h) as real,
                        ResizeByWidth(h, width).resize.h)
  {
    LoadedBaseAspect(h);
    HeightFromBaseAspect(h, width);
  }

  lemma HeightFromBaseAspect(h: Handle, width: uint32)
    requires BaseAspect(h) == Quotient(BaseWidth(h), BaseHeight(h)) && BaseWidth(h) != 0
    requires width >= 1 && width != BaseWidth(h) && ByWidthDefined(h, width)
    ensures TruncatesTo(width as real * BaseHeight(h) as real / BaseWidth(h) as real,
                        ResizeByWidth(h, width).resize.h)
  {
    if BaseHeight(h) == 0 {
      HeightFromInfiniteAspect(h, width);
    } else {
      HeightFromFiniteAspect(h, width);
    }
  }

  /** A base region of zero height has an infinite aspect and derives 0. */
  lemma HeightFromInfiniteAspect(h: Handle, width: uint32)
    requires BaseAspect(h) == Quotient(BaseWidth(h), BaseHeight(h))
    requires BaseWidth(h) != 0 && BaseHeight(h) == 0
    requires width >= 1 && width != BaseWidth(h) && ByWidthDefined(h, width)
    ensures TruncatesTo(width as real * BaseHeight(h) as real / BaseWidth(h) as real,
                        ResizeByWidth(h, width).resize.h)
  {
    assert !BaseAspect(h).Finite?;
  }

  lemma HeightFromFiniteAspect(h: Handle, width: uint32)
    requires BaseAspect(h) == Quotient(BaseWidth(h), BaseHeight(h))
    requires BaseWidth(h) != 0 && BaseHeight(h) != 0
    requires width >= 1 && width != BaseWidth(h) && ByWidthDefined(h, width)
    ensures TruncatesTo(width as real * BaseHeight(h) as real / BaseWidth(h) as real,
                        ResizeByWidth(h, width).resize.h)
  {
    DerivedHeight(width, BaseWidth(h), BaseHeight(h), BaseAspect(h), ResizeByWidth(h, width).resize.h);
  }

  /** A resize by width is defined on a loaded handle only when the base width
      is not zero: a zero width makes the base aspect 0 (or NaN), and the
      division by it has no `int` value. */
  lemma ByWidthNeedsBaseWidth(h: Handle, width: uint32)
    requires Loaded(h)
    requires width >= 1 && width != BaseWidth(h) && ByWidthDefined(h, width)
    ensures BaseWidth(h) != 0
  {
    LoadedBaseAspect(h);
  }

  /** The mirror property for `ResizeByHeight`.  It covers a base region of
      zero or negative width; a zero base height is no restriction, as
      `ByHeightNeedsBaseHeight` shows. */
  lemma ResizeByHeightKeepsProportion(h: Handle, height: uint32)
    requires Loaded(h) && BaseHeight(h) != 0
    requires height >= 1 && height != BaseHeight(h) && ByHeightDefined(h, height)
    ensures TruncatesTo(height as real * BaseWidth(h) as real / BaseHeight(h) as real,
                        ResizeByHeight(h, height).resize.w)
  {
    LoadedBaseAspect(h);
    WidthFromBaseAspect(h, height);
  }

  lemma WidthFromBaseAspect(h: Handle, height: uint32)
    requires BaseAspect(h) == Quotient(BaseWidth(h), BaseHeight(h)) && BaseHeight(h) != 0
    requires height >= 1 && height != BaseHeight(h) && ByHeightDefined(h, height)
    ensures TruncatesTo(height as real * BaseWidth(h) as real / BaseHeight(h) as real,
                        ResizeByHeight(h, height).resize.w)
  {
    DerivedWidth(height, BaseWidth(h), BaseHeight(h), BaseAspect(h), ResizeByHeight(h, height).resize.w);
  }

  /** A resize by height is defined on a loaded handle only when the base
      height is not zero: a zero height makes the base aspect infinite (or
      NaN), and the product with it has no `int` value. */
  lemma ByHeightNeedsBaseHeight(h: Handle, height: uint32)
    requires Loaded(h)
    requires height >= 1 && height != BaseHeight(h) && ByHeightDefined(h, height)
    ensures BaseHeight(h) != 0
  {
    LoadedBaseAspect(h);
  }

  lemma DerivedHeight(width: int, bw: int32, bh: int32, aspect: Double, n: int)
    requires bw != 0 && bh != 0 && aspect == Quotient(bw, bh)
    requires TruncatesTo(width as real / aspect.value, n)
    ensures TruncatesTo(width as real * bh as real / bw as real, n)
  {
    QuotientOfRatio(width as real, bw as real, bh as real);
  }

  lemma DerivedWidth(height: int, bw: int32, bh: int32, aspect: Double, n: int)
    requires bh != 0 && aspect == Quotient(bw, bh)
    requires TruncatesTo(height as real * aspect.value, n)
    ensures TruncatesTo(height as real * bw as real / bh as real, n)
  {
    ProductOfRatio(height as real, bw as real, bh as real);
  }

  lemma ProductOfRatio(hr: real, bw: real, bh: real)
    requires bh != 0.0
    ensures hr * (bw / bh) == hr * bw / bh
  {
  }

  lemma QuotientOfRatio(wr: real, bw: real, bh: real)
    requires bw != 0.0 && bh != 0.0
    ensures wr / (bw / bh) == wr * bh / bw
  {
    assert (wr * bh / bw) * (bw / bh) == wr;
  }
}

=== FILE: scenarios.dfy ===
/** Worked examples on concrete images, run through the JavaScript surface:
    the documented crop, scale and resize results, and the corners where the
    staged geometry and the saved image part ways. */
module Scenarios {
  import opened Wrappers
  import opened Doubles
  import opened Values
  import opened Errors
  import opened Handles
  import opened Planner
  import opened Commit
  import opened Bindings

  /** A handle just after a successful synchronous load of a `w` by `h` PNG. */
  function Sample(w: int32, h: int32): Handle
  {
    CreateContext(Fresh("in.png"), LoadReply(NoError, Image(w, h), "png")).handle
  }

  function Num(r: real): Value
  {
    Number(Finite(r))
  }

  /** The size a save of `h` would write. */
  function SavedSize(h: Handle): (int, int)
    requires h.img.Some?
  {
    var c := SaveContext(h, "out.png", NoError);
    (c.written.width, c.written.height)
  }

  lemma SampleShape(w: int32, h: int32)
    ensures var s := Sample(w, h);
      && s.size == ImageSize(w, h, Quotient(w, h)) && s.crop == s.size
      && s.img == Some(Image(w, h)) && !s.cropped && !s.resized && s.x == 0 && s.y == 0
  {
  }

  lemma RunOne(h: Handle, a: Request)
    requires CallDefined(h, a)
    ensures Run(h, [a]) == Some(After(h, a))
  {
  }

  lemma RunTwo(h: Handle, a: Request, b: Request)
    requires CallDefined(h, a) && CallDefined(After(h, a), b)
    ensures Run(h, [a, b]) == Some(After(After(h, a), b))
  {
    assert [a, b][1..] == [b];
    RunOne(After(h, a), b);
  }

  /** 1000x500 cropped to aspect 1 and centred: a 500x500 crop at x = 250. */
  lemma CropToSquareCentred()
    ensures Run(Sample(1000, 500), [CropCall([Num(1.0), Num(2.0)])]).Some?
    ensures var e := Run(Sample(1000, 500), [CropCall([Num(1.0), Num(2.0)])]).value;
      e.cropped && e.crop.w == 500 && e.crop.h == 500 && e.x == 250 && e.y == 0
      && Width(e) == 500 && Height(e) == 500 && e.img.Some? && SavedSize(e) == (500, 500)
  {
    var h := Sample(1000, 500);
    SampleShape(1000, 500);
    var req := CropCall([Num(1.0), Num(2.0)]);
    assert Trunc(2.0) == 2;
    assert AlignArgument(req.args) == Some(ALIGN_CENTER);
    assert Trunc(500.0) == 500;
    assert ToInt32(Mul(FromInt(500), Finite(1.0))) == 500;
    assert CallDefined(h, req);
    RunOne(h, req);
    var e := Crop(h, Finite(1.0), Some(ALIGN_CENTER)).handle;
    assert After(h, req) == e;
  }

  /** `scale(50)` halves the natural size, or the crop once one is staged. */
  lemma ScaleHalvesBase()
    ensures Run(Sample(1000, 500), [ScaleCall([Num(50.0)])]).Some?
    ensures var e := Run(Sample(1000, 500), [ScaleCall([Num(50.0)])]).value;
      Width(e) == 500 && Height(e) == 250 && e.img.Some? && SavedSize(e) == (500, 250)
    ensures Run(Sample(1000, 500), [CropCall([Num(1.0), Num(2.0)]), ScaleCall([Num(50.0)])]).Some?
    ensures var e := Run(Sample(1000, 500), [CropCall([Num(1.0), Num(2.0)]), ScaleCall([Num(50.0)])]).value;
      Width(e) == 250 && Height(e) == 250 && e.img.Some? && SavedSize(e) == (250, 250)
  {
    var h := Sample(1000, 500);
    SampleShape(1000, 500);
    var crop := CropCall([Num(1.0), Num(2.0)]);
    var scale := ScaleCall([Num(50.0)]);
    assert Trunc(2.0) == 2 && Trunc(500.0) == 500 && Trunc(250.0) == 250;
    assert Percent(1000, Finite(50.0)) == Finite(500.0);
    assert Percent(500, Finite(50.0)) == Finite(250.0);
    assert CallDefined(h, scale);
    RunOne(h, scale);
    assert AlignArgument(crop.args) == Some(ALIGN_CENTER);
    assert ToInt32(Mul(FromInt(500), Finite(1.0))) == 500;
    assert CallDefined(h, crop);
    var c := Crop(h, Finite(1.0), Some(ALIGN_CENTER)).handle;
    assert After(h, crop) == c;
    assert c.crop.w == 500 && c.crop.h == 500 && c.cropped;
    assert CallDefined(c, scale);
    RunTwo(h, crop, scale);
  }

  /** `resizeByWidth(300)` keeps the proportions of the base region: 300x300
      after a square crop, 300x150 on the 2:1 original. */
  lemma ResizeByWidthFollowsBase()
    ensures Run(Sample(1000, 500), [ResizeByWidthCall([Num(300.0)])]).Some?
    ensures var e := Run(Sample(1000, 500), [ResizeByWidthCall([Num(300.0)])]).value;
      Width(e) == 300 && Height(e) == 150
    ensures Run(Sample(1000, 500), [CropCall([Num(1.0)]), ResizeByWidthCall([Num(300.0)])]).Some?
    ensures var e := Run(Sample(1000, 500), [CropCall([Num(1.0)]), ResizeByWidthCall([Num(300.0)])]).value;
      Width(e) == 300 && Height(e) == 300
  {
    var h := Sample(1000, 500);
    SampleShape(1000, 500);
    var crop := CropCall([Num(1.0)]);
    var byWidth := ResizeByWidthCall([Num(300.0)]);
    assert Trunc(300.0) == 300 && Trunc(150.0) == 150 && Trunc(500.0) == 500;
    assert AlignArgument(crop.args) == None;
    assert ToInt32(Mul(FromInt(500), Finite(1.0))) == 500;
    assert CallDefined(h, crop);
    var c := Crop(h, Finite(1.0), None).handle;
    assert After(h, crop) == c;
    assert c.crop == ImageSize(500, 500, Finite(1.0)) && c.cropped;
    assert Uint32Value(Num(300.0)) == 300;
    assert ToInt32(Div(FromInt(300), Finite(2.0))) == 150;
    assert CallDefined(h, byWidth);
    RunOne(h, byWidth);
    assert ToInt32(Div(FromInt(300), Finite(1.0))) == 300;
    assert CallDefined(c, byWidth);
    RunTwo(h, crop, byWidth);
  }

  /** The offset of the axis a crop does not set survives from an earlier
      crop: narrowing 100x100 to aspect 0.5 flush right sets x = 50, and a
      later crop to aspect 2 keeps that x with the full width 100, so the
      rectangle handed to the library reaches past the right edge. */
  lemma StaleOffsetLeavesImage()
    ensures Run(Sample(100, 100), [CropCall([Num(0.5), Num(3.0)]), CropCall([Num(2.0), Num(1.0)])]).Some?
    ensures var e := Run(Sample(100, 100), [CropCall([Num(0.5), Num(3.0)]), CropCall([Num(2.0), Num(1.0)])]).value;
      e.cropped && e.x == 50 && e.crop.w == 100 && e.x + e.crop.w > e.size.w
  {
    var h := Sample(100, 100);
    SampleShape(100, 100);
    var first := CropCall([Num(0.5), Num(3.0)]);
    var second := CropCall([Num(2.0), Num(1.0)]);
    assert Trunc(50.0) == 50 && Trunc(3.0) == 3 && Trunc(1.0) == 1;
    assert h.size.aspect == Finite(1.0);
    assert AlignArgument(first.args) == Some(ALIGN_END);
    assert AlignArgument(second.args) == Some(ALIGN_START);
    assert ToInt32(Mul(FromInt(100), Finite(0.5))) == 50;
    assert CallDefined(h, first);
    var c := Crop(h, Finite(0.5), Some(ALIGN_END)).handle;
    assert After(h, first) == c;
    assert c.x == 50 && c.crop.w == 50 && c.size == h.size;
    assert ToInt32(Div(FromInt(100), Finite(2.0))) == 50;
    assert CallDefined(c, second);
    var e := Crop(c, Finite(2.0), Some(ALIGN_START)).handle;
    assert After(c, second) == e;
    RunTwo(h, first, second);
  }

  /** A crop to the natural aspect after a real crop unstages the crop but
      leaves its size behind: the `width` property then reports 50 while a
      save writes the whole 100x50 image. */
  lemma EqualAspectCropLeavesStaleWidth()
    ensures Run(Sample(100, 50), [CropCall([Num(1.0)]), CropCall([Num(2.0)])]).Some?
    ensures var e := Run(Sample(100, 50), [CropCall([Num(1.0)]), CropCall([Num(2.0)])]).value;
      !e.cropped && Width(e) == 50 && e.img.Some? && SavedSize(e) == (100, 50)
  {
    var h := Sample(100, 50);
    SampleShape(100, 50);
    var first := CropCall([Num(1.0)]);
    var second := CropCall([Num(2.0)]);
    assert Trunc(50.0) == 50;
    assert AlignArgument(first.args) == None && AlignArgument(second.args) == None;
    assert ToInt32(Mul(FromInt(50), Finite(1.0))) == 50;
    assert CallDefined(h, first);
    var c := Crop(h, Finite(1.0), None).handle;
    assert After(h, first) == c;
    assert c.crop.w == 50 && c.size == h.size && h.size.aspect == Finite(2.0);
    assert CallDefined(c, second);
    var e := Crop(c, Finite(2.0), None).handle;
    assert After(c, second) == e;
    assert e == c.(cropped := false);
    RunTwo(h, first, second);
  }

  /** On 1000x300, `crop(rawWidth / rawHeight)` passes the double
      3.3333333333333335.  With doubles rounded, that equals the stored natural
      aspect and `crop` would return false.  With the exact natural aspect 10/3,
      the double is above it, so the model shortens the crop to 299 rows. */
  lemma RoundedAspectShortens()
    ensures Run(Sample(1000, 300), [CropCall([Num(3.3333333333333335)])]).Some?
    ensures var e := Run(Sample(1000, 300), [CropCall([Num(3.3333333333333335)])]).value;
      e.cropped && e.crop.w == 1000 && e.crop.h == 299 && Height(e) == 299
  {
    var h := Sample(1000, 300);
    SampleShape(1000, 300);
    var a := 3.3333333333333335;
    var req := CropCall([Num(a)]);
    assert AlignArgument(req.args) == None;
    assert Less(h.size.aspect, Finite(a));
    assert 299.0 <= 1000.0 / a < 300.0;
    assert Trunc(1000.0 / a) == 299;
    assert ToInt32(Div(FromInt(1000), Finite(a))) == 299;
    assert CallDefined(h, req);
    RunOne(h, req);
    var e := Crop(h, Finite(a), None).handle;
    assert After(h, req) == e;
  }

  /** A resize back to the base size is ignored, not a reset: the earlier
      target stays staged. */
  lemma ResizeBackToBaseIsIgnored()
    ensures Run(Sample(100, 100), [ResizeCall([Num(50.0), Num(50.0)]), ResizeCall([Num(100.0), Num(100.0)])]).Some?
    ensures var e := Run(Sample(100, 100), [ResizeCall([Num(50.0), Num(50.0)]), ResizeCall([Num(100.0), Num(100.0)])]).value;
      Width(e) == 50 && Height(e) == 50 && e.img.Some? && SavedSize(e) == (50, 50)
  {
    var h := Sample(100, 100);
    SampleShape(100, 100);
    var first := ResizeCall([Num(50.0), Num(50.0)]);
    var second := ResizeCall([Num(100.0), Num(100.0)]);
    assert Trunc(50.0) == 50 && Trunc(100.0) == 100;
    assert CallDefined(h, first);
    var c := Resize(h, 50, 50);
    assert After(h, first) == c;
    assert CallDefined(c, second);
    assert After(c, second) == c;
    RunTwo(h, first, second);
  }

  /** A resize is not recomputed by a later crop: on 1000x500,
      `resizeByWidth(300)` then `crop(1)` saves the 500x500 crop squeezed
      into 300x150. */
  lemma CropAfterResizeKeepsTarget()
    ensures Run(Sample(1000, 500), [ResizeByWidthCall([Num(300.0)]), CropCall([Num(1.0)])]).Some?
    ensures var e := Run(Sample(1000, 500), [ResizeByWidthCall([Num(300.0)]), CropCall([Num(1.0)])]).value;
      e.cropped && e.crop.w == 500 && e.crop.h == 500 && e.img.Some? && SavedSize(e) == (300, 150)
  {
    var h := Sample(1000, 500);
    SampleShape(1000, 500);
    var first := ResizeByWidthCall([Num(300.0)]);
    var second := CropCall([Num(1.0)]);
    assert Trunc(500.0) == 500 && Trunc(300.0) == 300 && Trunc(150.0) == 150;
    assert Uint32Value(Num(300.0)) == 300;
    assert ToInt32(Div(FromInt(300), Finite(2.0))) == 150;
    assert CallDefined(h, first);
    var c := ResizeByWidth(h, 300);
    assert After(h, first) == c;
    assert c.resize == Dims(300, 150) && c.resized && c.size == h.size;
    assert AlignArgument(second.args) == None;
    assert ToInt32(Mul(FromInt(500), Finite(1.0))) == 500;
    assert CallDefined(c, second);
    var e := Crop(c, Finite(1.0), None).handle;
    assert After(c, second) == e;
    RunTwo(h, first, second);
  }
}

=== FILE: tasks.dfy ===
/** The asynchronous path: `beginEIO` runs a load or a save on a worker
    under the handle's mutex, `endEIO` turns the outcome into the callback's
    arguments back on the event loop.  Threads, the eio queue and the mutex
    itself are not modelled; only what each mutex call reported is. */
module Tasks {
  import opened Wrappers
  import opened Errors
  import opened Handles
  import opened Commit

  /** `ASYNC_TASK_LOAD`, or `ASYNC_TASK_SAVE` with the path it saves to. */
  datatype Task = LoadTask | SaveTask(path: string)

  /** What `pthread_mutex_lock` or `pthread_mutex_unlock` reported: success,
      or failure together with the text `strerror(errno)` gave at that point. */
  datatype MutexReply = Acquired | MutexError(message: string)

  /** What Imlib2 answers to the load and to the save call. */
  datatype Library = Library(load: LoadReply, saveCode: ErrorCode)

  /** The `Baton_t` fields that outlive `beginEIO`: which operation, the handle,
      the system error text, the operation's error name, and (for a save)
      the request handed to the encoder. */
  datatype Baton = Baton(task: Task, handle: Handle, errstr: Option<string>,
                         retval: Option<string>, written: Option<SaveRequest>)

  /** `beginEIO`.  A save needs an image to work on once the lock is held. */
  function BeginTask(h: Handle, task: Task, lock: MutexReply, lib: Library, unlock: MutexReply): (b: Baton)
    requires lock.Acquired? && task.SaveTask? ==> h.img.Some?
    ensures b.task == task
    ensures lock.MutexError? ==> b == Baton(task, h, Some(lock.message), None, None)
    ensures lock.Acquired? ==> b.errstr == (if unlock.MutexError? then Some(unlock.message) else None)
    ensures lock.Acquired? && task.LoadTask? ==>
      Attempt(b.handle, b.retval) == CreateContext(h, lib.load) && b.written.None?
    ensures lock.Acquired? && task.SaveTask? ==>
      var c := SaveContext(h, task.path, lib.saveCode);
      b.handle == h && b.retval == c.error && b.written == Some(c.written)
  {
    if lock.MutexError? then
      Baton(task, h, Some(lock.message), None, None)
    else
      var unlocked := if unlock.MutexError? then Some(unlock.message) else None;
      match task
      case LoadTask =>
        var a := CreateContext(h, lib.load);
        Baton(task, a.handle, unlocked, a.error, None)
      case SaveTask(path) =>
        var c := SaveContext(h, path, lib.saveCode);
        Baton(task, c.handle, unlocked, c.error, Some(c.written))
  }

  /** A callback argument: `undefined`, an `Error` with its message, or the
      handle object. */
  datatype CallbackArg = Undefined | ErrorObject(message: string) | HandleObject(handle: Handle)

  /** The callback's arguments, and the handle if it is still alive afterwards. */
  datatype Delivery = Delivery(args: seq<CallbackArg>, survivor: Option<Handle>)

  /** `endEIO`.  The system error text wins over the operation's error; a
      load callback gets `(error, handle)` and a failed load deletes the
      handle and passes `undefined`; a save callback gets `(error)` alone and
      the handle survives. */
  function EndTask(b: Baton): (d: Delivery)
    ensures b.task.LoadTask? ==> |d.args| == 2
    ensures b.task.SaveTask? ==> |d.args| == 1 && d.survivor == Some(b.handle)
    ensures d.args[0].Undefined? <==> b.errstr.None? && b.retval.None?
    ensures b.errstr.Some? ==> d.args[0] == ErrorObject(b.errstr.value)
    ensures b.errstr.None? && b.retval.Some? ==> d.args[0] == ErrorObject(b.retval.value)
    ensures b.task.LoadTask? && d.args[0].Undefined? ==>
      d.args[1] == HandleObject(b.handle) && d.survivor == Some(b.handle)
    ensures b.task.LoadTask? && !d.args[0].Undefined? ==>
      d.args[1] == Undefined && d.survivor.None?
  {
    var error :=
      if b.errstr.Some? then ErrorObject(b.errstr.value)
      else if b.retval.Some? then ErrorObject(b.retval.value)
      else Undefined;
    match b.task
    case LoadTask =>
      if error.Undefined? then Delivery([error, HandleObject(b.handle)], Some(b.handle))
      else Delivery([error, Undefined], None)
    case SaveTask(_) =>
      Delivery([error], Some(b.handle))
  }

  /** One task from the worker to the callback. */
  function RunTask(h: Handle, task: Task, lock: MutexReply, lib: Library, unlock: MutexReply): Delivery
    requires lock.Acquired? && task.SaveTask? ==> h.img.Some?
  {
    EndTask(BeginTask(h, task, lock, lib, unlock))
  }

  /** A failed lock skips the operation: nothing is loaded or written, the
      handle is untouched, and the callback reports the lock's error (a load
      task's handle is deleted). */
  lemma LockFailureSkipsOperation(h: Handle, task: Task, lock: MutexReply, lib: Library, unlock: MutexReply)
    requires lock.MutexError?
    ensures BeginTask(h, task, lock, lib, unlock).handle == h
    ensures BeginTask(h, task, lock, lib, unlock).written.None?
    ensures RunTask(h, task, lock, lib, unlock).args[0] == ErrorObject(lock.message)
    ensures task.LoadTask? ==> RunTask(h, task, lock, lib, unlock).survivor.None?
  {
  }

  /** A mutex error takes precedence over the operation's own result: with a
      failed lock or unlock the callback's error is the mutex's, whatever the
      library answered. */
  lemma MutexErrorTakesPrecedence(h: Handle, task: Task, lock: MutexReply, lib: Library, unlock: MutexReply)
    requires lock.Acquired? && task.SaveTask? ==> h.img.Some?
    requires lock.MutexError? || unlock.MutexError?
    ensures RunTask(h, task, lock, lib, unlock).args[0] ==
      ErrorObject(if lock.MutexError? then lock.message else unlock.message)
  {
  }

  /** With both mutex calls succeeding, a load task reports success exactly
      when Imlib2 did: on success the callback gets the loaded handle, which
      reports its natural size; on failure it gets the error name and
      `undefined`, and the handle is gone. */
  lemma LoadTaskOutcome(h: Handle, lib: Library)
    ensures var d := RunTask(h, LoadTask, Acquired, lib, Acquired);
      && (d.args[0].Undefined? <==> lib.load.code == NoError)
      && (lib.load.code == NoError ==>
            && d.args[1].HandleObject?
            && d.survivor == Some(d.args[1].handle)
            && Width(d.args[1].handle) == lib.load.image.w
            && Height(d.args[1].handle) == lib.load.image.h
            && (Plausible(lib.load.image) && h.quality <= 100 ==> Loaded(d.args[1].handle)))
      && (lib.load.code != NoError ==>
            d.args == [ErrorObject(ErrorName(lib.load.code)), Undefined] && d.survivor.None?)
  {
  }

  /** With both mutex calls succeeding, a save task runs the commit, passes
      only its error to the callback, and leaves the handle as it was. */
  lemma SaveTaskOutcome(h: Handle, path: string, lib: Library)
    requires h.img.Some?
    ensures var d := RunTask(h, SaveTask(path), Acquired, lib, Acquired);
      var c := SaveContext(h, path, lib.saveCode);
      && d.args == [if lib.saveCode == NoError then Undefined else ErrorObject(ErrorName(lib.saveCode))]
      && d.survivor == Some(h)
      && BeginTask(h, SaveTask(path), Acquired, lib, Acquired).written == Some(c.written)
  {
  }

  /** Whatever happens, a load callback never receives a handle alongside an
      error, and the handle of a failed load does not survive. */
  lemma FailedLoadNeverExposesHandle(h: Handle, lock: MutexReply, lib: Library, unlock: MutexReply)
    ensures var d := RunTask(h, LoadTask, lock, lib, unlock);
      !d.args[0].Undefined? ==> d.args[1] == Undefined && d.survivor.None?
  {
  }
}

=== FILE: values.dfy ===
/** JavaScript values as the binding inspects them through V8: whether an
    argument is a number, a string or a function, and the number it converts
    to. */
module Values {
  import opened Doubles

  /** A JavaScript value.  The conversion of a non-number to a number is not
      modelled: each string carries the number `ToNumber` gives for it, and so
      does every other value (a function usually gives NaN, but its own
      `valueOf` may say otherwise; undefined, null, booleans, objects). */
  datatype Value =
    | Number(number: Double)
    | Text(chars: string, asNumber: Double)
    | Callable(asNumber: Double)
    | Other(asNumber: Double)

  predicate IsNumber(v: Value)
  {
    v.Number?
  }

  /** `IsString()` together with a non-zero `Length()`. */
  predicate IsNonEmptyString(v: Value)
  {
    v.Text? && |v.chars| > 0
  }

  predicate IsFunction(v: Value)
  {
    v.Callable?
  }

  /** `Value::NumberValue`. */
  function NumberValue(v: Value): Double
  {
    match v
    case Number(d) => d
    case Text(_, d) => d
    case Callable(d) => d
    case Other(d) => d
  }

  /** `Value::Uint32Value`. */
  function Uint32Value(v: Value): uint32
  {
    ToUint32(NumberValue(v))
  }

  /** The truth value of a double in a C condition: false exactly for zero.
      NaN compares unequal to zero, so it counts as true. */
  predicate Truthy(d: Double)
  {
    d != Finite(0.0)
  }

  /** What `strdup(*String::Utf8Value(v))` keeps of a string: the characters
      before the first NUL, since C strings end there. */
  function CString(s: string): (c: string)
    ensures c <= s
    ensures forall i :: 0 <= i < |c| ==> c[i] != '\0'
    ensures |c| < |s| ==> s[|c|] == '\0'
  {
    if |s| == 0 || s[0] == '\0' then []
    else [s[0]] + CString(s[1..])
  }
}

=== FILE: wrappers.dfy ===
/** The optional-value type used throughout the model: a C value that may be
    NULL, a JavaScript argument that may be absent. */
module Wrappers {

  datatype Option<+T> = None | Some(value: T)
}
